=== FILE: README.md ===
# Stock-management admin client: auth gate and request layer

A Dafny model of the logic inside a small React admin client for an
inventory backend. Almost all of the client is rendering. The model covers
the parts that decide something:

- **Token store** (`TokenStore`): the bearer token, cached in memory in
  front of one durable slot. A page reload empties the cache and keeps the
  slot.
- **Request layer** (`ApiClient`, `ApiStubs`): request headers, how an HTTP
  response is classified (401 first, then other failures, then JSON or
  text), and the fixed stub payloads returned when the backend cannot be
  reached.
- **Session** (`AuthSession`): the login and logout transitions. Whether a
  visitor is authenticated is derived from the token alone.
- **Route guard and login page** (`ProtectedRoute`, `LoginPage`,
  `Navigation`): redirect-or-render, the return path carried in `state.from`,
  and the navigation back after a successful login.
- **Items page** (`ItemsPage`): page count, Prev/Next, folding a listing
  reply into page state, form validation and normalisation, and the
  create/update/delete dispatch.
- **Journeys** (`Flows`): properties that span files. For example, an
  anonymous request for `/items` goes through login and comes back to
  `/items`.

Shared helpers:
- `Wrappers`: `Option` and `Result`.
- `Text`: JavaScript `trim`, `toLowerCase`, `includes`, integer rendering and
  `Number()` on numerals.
- `Seqs`: `filter` and `slice(0, n)`.

Everything is a pure function over immutable values. I/O, the network, the
clock, randomness and the user's choices are all parameters:
- a call receives what `fetch` produced, as `ApiClient.Transport`;
- the stub's random id is passed in as `randomId`;
- the delete confirmation is passed in as `confirmed`;
- the redirect to `/login` is a flag on the result (`redirectedToLogin`).

Prices are whole cents: the catalogue's 12.5 becomes 1250. A price typed
into the form is read in currency units with at most two decimals and
converted to cents, so "12.5" is sent as 1250 (`ItemsPage.CoercePrice`).

Three behaviours of the code are easy to misread:
- **Validation checks the raw text.** The submit handler
  (`Items.jsx:62`) checks that name and SKU are non-empty before
  `normalizeForm` trims them (`Items.jsx:89-90`). So a name made only of
  spaces passes validation and is sent as `""`
  (`ItemsPage.BlankNamePassesValidation`).
- **Page count has fallbacks.** `Items.jsx:19` divides
  `total || items.length || 1` by the page size and never returns less
  than 1.
- **HTTP failures fall back to the stub.** The comment at
  `client.js:73-74` says the fallback is for a backend that is not ready.
  But every client function wraps `handleResponse` in the same
  `try`/`catch` as `fetch`. So a 401 or any other failure status also ends
  in the stub payload. The client functions (`ApiClient.ApiLogin` and the
  rest) model the code as written. See "## Findings".

## Model

| member | source | states |
|---|---|---|
| TokenStore.SetAuthToken | stock_management_frontend/src/api/client.js:11-19 | a truthy token fills both the memory and the persisted slot; null or "" empties both, whatever they held before |
| TokenStore.GetAuthToken | stock_management_frontend/src/api/client.js:22-28 | returns the cached token when there is one; otherwise returns the persisted token and caches it; never writes the persisted slot |
| TokenStore.Reload | stock_management_frontend/src/api/client.js:8 | a page load starts with an empty cache and keeps the persisted slot |
| TokenStore.ValidPreserved | stock_management_frontend/src/api/client.js:13-26 | no operation ever stores an empty-string token |
| TokenStore.SetThenGet | stock_management_frontend/src/api/client.js:11-28 | after setting a non-empty token, reading returns it and the persisted slot holds it |
| TokenStore.ClearThenGet | stock_management_frontend/src/api/client.js:13-27 | after clearing with null or "", both slots are empty and reading returns null |
| TokenStore.GetAfterReload | stock_management_frontend/src/api/client.js:24-27 | after a reload, reading returns the persisted token and caches it in memory |
| TokenStore.SetSurvivesReload | stock_management_frontend/src/api/client.js:11-28 | a set token is still read back after a reload, and a cleared one stays cleared |
| TokenStore.GetIdempotent | stock_management_frontend/src/api/client.js:22-28 | a second read returns the same token and leaves the store as it was |
| ApiClient.AuthHeaders | stock_management_frontend/src/api/client.js:31-37 | Content-Type is application/json unless overridden; Authorization is `Bearer <token>` exactly when a token exists; caller extras override both; no other keys |
| ApiClient.HandleResponse | stock_management_frontend/src/api/client.js:40-60 | 401 comes first: it clears the store, redirects to /login and fails with "Unauthorized"; any other non-2xx fails with the body text, or a status message when the body is empty; a 2xx is JSON exactly when its content type contains application/json, and text otherwise |
| ApiClient.StatusMessageNamesStatus | stock_management_frontend/src/api/client.js:51-52 | with an empty body, the failure message is the fixed prefix followed by a numeral that parses back to the status |
| ApiClient.CallAsWritten | stock_management_frontend/src/api/client.js:65-84 | as written: only a 401 redirects and empties the store; a 2xx resolves with the backend body, as JSON exactly when the content type mentions application/json and as text otherwise; transport failure and every HTTP failure both settle as the stub does |
| ApiClient.RejectedLoginAcceptedAsWritten | stock_management_frontend/src/api/client.js:71-83 | as written: a 403 to a login neither redirects nor clears the store, and the stub then resolves with stub-token |
| ApiClient.ServerErrorListsStubAsWritten | stock_management_frontend/src/api/client.js:94-111 | as written: a 500 to the item listing resolves with the demo catalogue |
| ApiClient.Call | stock_management_frontend/src/api/client.js:94-99 | corrected: a delivered response settles with handleResponse's value or error; the stub is used only on transport failure |
| ApiClient.StubOnlyWhenUnreachable | stock_management_frontend/src/api/client.js:41-48 | corrected: a stub payload implies the backend was unreachable, and a 401 always clears the store, redirects and rejects with "Unauthorized" |
| ApiClient.CallAgreesOutsideFailures | stock_management_frontend/src/api/client.js:54-59 | the corrected and as-written calls agree on 2xx responses and on transport failures |
| ApiClient.ApiLogin | stock_management_frontend/src/api/client.js:63-85 | login sends no bearer token, so only a 401 changes the store (it clears it and redirects); a 2xx settles with the backend body, as JSON exactly when the content type mentions application/json and as text otherwise; when unreachable or on any failure status the stub answers: stub-token exactly when both fields are non-empty, else "Invalid credentials" |
| ApiClient.GetItems | stock_management_frontend/src/api/client.js:88-113 | reads the token for its headers (caching it); a 2xx settles with the backend body, as JSON exactly when the content type mentions application/json and as text otherwise; a 401 clears the store and redirects; when unreachable or on any failure status it settles with the stub page for q, page and pageSize |
| ApiClient.CreateItem | stock_management_frontend/src/api/client.js:116-129 | a 2xx settles with the backend body, as JSON exactly when the content type mentions application/json and as text otherwise; a 401 clears the store and redirects; when unreachable or on any failure status it resolves with the sent fields under an id in [0, 100000) |
| ApiClient.UpdateItem | stock_management_frontend/src/api/client.js:132-144 | a 2xx settles with the backend body, as JSON exactly when the content type mentions application/json and as text otherwise; a 401 clears the store and redirects; when unreachable or on any failure status it resolves with `{ id, ...fields }` |
| ApiClient.DeleteItem | stock_management_frontend/src/api/client.js:147-158 | a 2xx settles with the backend body, as JSON exactly when the content type mentions application/json and as text otherwise; a 401 clears the store and redirects; when unreachable or on any failure status it resolves with `{ success: true }` |
| ApiClient.GetLowStock | stock_management_frontend/src/api/client.js:161-175 | a 2xx settles with the backend body, as JSON exactly when the content type mentions application/json and as text otherwise; a 401 clears the store and redirects; when unreachable or on any failure status it resolves with the two low-stock items Widget A and Gadget C, count 2 |
| ApiClient.GetKpis | stock_management_frontend/src/api/client.js:178-188 | a 2xx settles with the backend body, as JSON exactly when the content type mentions application/json and as text otherwise; a 401 clears the store and redirects; when unreachable or on any failure status it resolves with 3 items, 2 low, 7 movements |
| ApiStubs.StubLogin | stock_management_frontend/src/api/client.js:75-83 | resolves `{access_token: "stub-token"}` exactly when email and password are both non-empty; otherwise rejects with "Invalid credentials" |
| ApiStubs.StubItems | stock_management_frontend/src/api/client.js:101-111 | items are a prefix of the catalogue filtered by case-insensitive name/SKU match; length is min(pageSize, total) for a non-negative size; total is the match count; page and pageSize are echoed |
| ApiStubs.EmptyQueryListsCatalog | stock_management_frontend/src/api/client.js:105-107 | an empty query keeps the whole catalogue |
| ApiStubs.WidgetSearch | stock_management_frontend/src/api/client.js:101-111 | searching "widget" returns Widget A and Widget B, total 2 |
| ApiStubs.StubLowStock | stock_management_frontend/src/api/client.js:161-173 | count equals the number of items; every item has quantity <= reorder_threshold and comes from the catalogue |
| ApiStubs.StubLowStockIsCatalogFilter | stock_management_frontend/src/api/client.js:162-173 | the low-stock stub is exactly the catalogue filtered by the low-stock rule |
| ApiStubs.StubKpis | stock_management_frontend/src/api/client.js:186 | the KPI stub's total and low-stock counts match the catalogue and the low-stock stub |
| ApiStubs.StubCreate | stock_management_frontend/src/api/client.js:127 | the created item carries the sent fields and an id in [0, 100000) |
| ApiStubs.StubUpdate | stock_management_frontend/src/api/client.js:142 | the updated item carries the given id and the sent fields |
| ApiStubs.StubDelete | stock_management_frontend/src/api/client.js:156 | deletion always reports success |
| Text.ContainsIff | stock_management_frontend/src/api/client.js:108-109 | the `includes` scan succeeds exactly when the needle occurs at some offset |
| Text.ParseShowNat | stock_management_frontend/src/api/client.js:52 | the rendered status reads back as the status |
| Text.ToCents | stock_management_frontend/src/pages/Items.jsx:93 | a blank string reads as 0 cents; text that does not read is not blank |
| Text.WholeUnitsInCents | stock_management_frontend/src/pages/Items.jsx:91-93 | whatever reads as a whole number of units reads as 100 times as many cents |
| Text.ToCentsDecimals | stock_management_frontend/src/pages/Items.jsx:93 | n followed by a point and one or two digits reads as 100n cents plus the cents the digits write |
| Seqs.Slice | stock_management_frontend/src/api/client.js:111 | `slice(0, n)` is a prefix whose length is n clamped to [0, len], with a negative n counted from the end |
| Seqs.Filter | stock_management_frontend/src/api/client.js:105-110 | `filter` keeps no more elements than it is given; every survivor satisfies the predicate and comes from the input; every input element satisfying it survives |
| Seqs.FilterCounts | stock_management_frontend/src/api/client.js:105-110 | each element satisfying the predicate survives exactly as often as it occurs, and no other element survives |
| Seqs.FilterConcat | stock_management_frontend/src/api/client.js:105-110 | filtering a concatenation is the concatenation of the filtered parts, so survivors keep their order |
| AuthSession.Init | stock_management_frontend/src/context/AuthContext.js:16-25 | the initial token comes from the store; the user is admin@example.com exactly when a token is present; the session agrees with the store |
| AuthSession.LoginStart | stock_management_frontend/src/context/AuthContext.js:28-29 | each attempt first clears the error and sets loading |
| AuthSession.LoginFinish | stock_management_frontend/src/context/AuthContext.js:30-46 | succeeds exactly when a non-empty access_token arrives: sets token, user = email, writes the store. Otherwise clears token, user and store and records the message ("Invalid login response" for a missing token, "Login failed" for an empty message). Loading is false afterwards; isAuthenticated is true exactly on success |
| AuthSession.Login | stock_management_frontend/src/context/AuthContext.js:27-47 | returns true exactly on a non-empty token; the error is empty after success; loading ends false; session and store agree |
| AuthSession.AccessToken | stock_management_frontend/src/context/AuthContext.js:31-32 | reads `res?.access_token`: the stub's token, the parsed token of a JSON body, none from a text body, or the rejection passed on |
| AuthSession.Logout | stock_management_frontend/src/context/AuthContext.js:49-53 | token and user become null and the store is cleared; loading and error are untouched |
| AuthSession.StubLoginOutcome | stock_management_frontend/src/context/AuthContext.js:31-43 | with the backend unreachable, login succeeds with stub-token exactly when both fields are non-empty; otherwise it records "Invalid credentials" |
| AuthSession.LoginSurvivesReload | stock_management_frontend/src/context/AuthContext.js:16 | after a successful login, a reload boots with the same token |
| ProtectedRoute.Guard | stock_management_frontend/src/ui/ProtectedRoute.jsx:8-15 | anonymous visitors get a replace-redirect to /login with state.from = the current location; authenticated visitors get the children unchanged |
| LoginPage.ReturnTarget | stock_management_frontend/src/pages/Login.jsx:12 | the return target is state.from.pathname when present and non-empty, else "/" |
| LoginPage.Render | stock_management_frontend/src/pages/Login.jsx:17-19 | an authenticated visitor is sent on to the return target with replace |
| LoginPage.Submit | stock_management_frontend/src/pages/Login.jsx:23 | login is called exactly when email and password are both non-empty |
| LoginPage.AfterLogin | stock_management_frontend/src/pages/Login.jsx:24-25 | navigates to the return target exactly when login returned true |
| ItemsPage.CeilDiv | stock_management_frontend/src/pages/Items.jsx:19 | Math.ceil of an integer quotient, by its defining inequalities |
| ItemsPage.PageBase | stock_management_frontend/src/pages/Items.jsx:19 | base is total if non-zero, else items.length if non-zero, else 1 |
| ItemsPage.PageCount | stock_management_frontend/src/pages/Items.jsx:18-21 | at least 1, and otherwise the ceiling of base / pageSize |
| ItemsPage.PageCountIsCeiling | stock_management_frontend/src/pages/Items.jsx:18-21 | for positive sizes, the page count is the least number of pages holding every row |
| ItemsPage.PageCountExample | stock_management_frontend/src/pages/Items.jsx:19 | total 25 at page size 10 gives 3 pages |
| ItemsPage.PrevButton | stock_management_frontend/src/pages/Items.jsx:244-248 | disabled exactly when page <= 1; the target max(1, page-1) is never below 1 |
| ItemsPage.NextButton | stock_management_frontend/src/pages/Items.jsx:258-262 | disabled exactly when page >= pageCount; the target min(pageCount, page+1) never exceeds pageCount |
| ItemsPage.PagerExample | stock_management_frontend/src/pages/Items.jsx:242-266 | with 25 rows at size 10: 3 pages, Prev disabled on page 1, Next disabled on page 3 |
| ItemsPage.StartFetch | stock_management_frontend/src/pages/Items.jsx:23-26 | the request uses the current search text and page size, and the override page when given |
| ItemsPage.ClickPager | stock_management_frontend/src/pages/Items.jsx:245-262 | an enabled click moves to the target page and fetches that page |
| ItemsPage.PagingStaysInRange | stock_management_frontend/src/pages/Items.jsx:244-262 | paging from a page in [1, pageCount] stays in that range, and pageCount is unchanged |
| ItemsPage.Search | stock_management_frontend/src/pages/Items.jsx:96-99 | search always fetches page 1 of the current text and page size; only `loading` changes before the reply |
| ItemsPage.ApplyFetch | stock_management_frontend/src/pages/Items.jsx:23-34 | items default to [], page to 1, pageSize to 10, total to 0 when missing or falsy; a rejection keeps the rows and records its message or "Failed to load items"; loading ends |
| ItemsPage.OrDefault | stock_management_frontend/src/pages/Items.jsx:28 | `x || d`: a missing or zero value falls back to d |
| ItemsPage.Coerce | stock_management_frontend/src/pages/Items.jsx:91-93 | numbers stay; typed text is read as a numeral; NaN becomes 0 |
| ItemsPage.CoerceTypedNumeral | stock_management_frontend/src/pages/Items.jsx:91-93 | a typed rendered integer coerces back to itself, and a blank field to 0 |
| ItemsPage.CoercePrice | stock_management_frontend/src/pages/Items.jsx:93 | a price copied from an item stays; typed text is read as units with up to two decimals, in cents; unreadable text becomes 0 |
| ItemsPage.CoerceTypedPrice | stock_management_frontend/src/pages/Items.jsx:93 | a typed whole number n is sent as 100n cents, and n with one or two decimals as 100n plus the cents they write |
| ItemsPage.Normalize | stock_management_frontend/src/pages/Items.jsx:88-94 | name and SKU are trimmed; quantity and threshold are coerced; the price is coerced in cents |
| ItemsPage.NormalizeTrimsFully | stock_management_frontend/src/pages/Items.jsx:89-90 | sent name and SKU have no surrounding whitespace, and are empty exactly when the input was all whitespace |
| ItemsPage.FormOf | stock_management_frontend/src/pages/Items.jsx:48-54 | the form holds exactly the item's five editable fields |
| ItemsPage.StartEdit | stock_management_frontend/src/pages/Items.jsx:46-55 | remembers the item and loads its five fields into the form; the listing, search text, loading flag and error are untouched |
| ItemsPage.StartCreate | stock_management_frontend/src/pages/Items.jsx:41-44 | leaves edit mode with the empty form; the listing, search text, loading flag and error are untouched |
| ItemsPage.CancelDiscardsEdit | stock_management_frontend/src/pages/Items.jsx:41-55 | cancelling an edit leaves the page as if the edit never started, so the next save creates |
| ItemsPage.TypeInto | stock_management_frontend/src/pages/Items.jsx:139-179 | typing changes exactly one form field |
| ItemsPage.Submit | stock_management_frontend/src/pages/Items.jsx:57-69 | an empty name or SKU (untrimmed) fails with "Name and SKU are required" and no call; otherwise update(editing.id) exactly when editing, else create, with the normalised form |
| ItemsPage.Refetch | stock_management_frontend/src/pages/Items.jsx:70 | the reload after a save or delete asks for the page on show, with the current search text and page size |
| ItemsPage.FinishSubmit | stock_management_frontend/src/pages/Items.jsx:70-75 | keeps the search text; after a save: leaves edit mode with the empty form; a successful reload shows its rows and its page, size and total with the 1/10/0 fallbacks, a failed one keeps the rows and records its message or "Failed to load items"; a failed save keeps rows, form and edit mode and records its message or "Save failed" |
| ItemsPage.Delete | stock_management_frontend/src/pages/Items.jsx:78-81 | delete is called exactly when the user confirmed |
| ItemsPage.FinishDelete | stock_management_frontend/src/pages/Items.jsx:80-85 | the form, edit mode and search text are kept; after a delete, a successful reload shows its rows and its page, size and total with the 1/10/0 fallbacks, a failed one keeps the rows and records its message; a failed delete keeps the rows and records its message or "Delete failed" |
| ItemsPage.BlankNamePassesValidation | stock_management_frontend/src/pages/Items.jsx:62-90 | a whitespace-only name passes validation and is sent as "" |
| ItemsPage.EmptyFormRejected | stock_management_frontend/src/pages/Items.jsx:5 | the fresh create form cannot be submitted |
| ItemsPage.EditUnchangedRoundTrip | stock_management_frontend/src/pages/Items.jsx:46-68 | editing an item and saving it unchanged sends an update of its id with its own fields |
| ItemsPage.PageSizeNeverZero | stock_management_frontend/src/pages/Items.jsx:11-28 | the page size is never zero, so the page count is always defined |
| ItemsPage.StubReplyApplied | stock_management_frontend/src/pages/Items.jsx:26-28 | a stub listing lands unchanged: its rows, total, page and size |
| Flows.LoginLocationFor | stock_management_frontend/src/ui/ProtectedRoute.jsx:12 | the login page is reached at /login with state.from = the requested location |
| Flows.ProtectedPathReturnsAfterLogin | stock_management_frontend/src/pages/Login.jsx:12-25 | anonymous request for p: redirect to /login with from = p, form shown, login called; on success navigate to p, where the guard renders the page |
| Flows.StubJourneyToItems | stock_management_frontend/src/pages/Login.jsx:24-25 | with the backend unreachable, /items → login as a@b.com / x → back on /items holding stub-token |
| Flows.FailedLoginStays | stock_management_frontend/src/pages/Login.jsx:24-25 | a failed login does not navigate and leaves the form shown |
| Flows.UnauthorizedEndsSession | stock_management_frontend/src/api/client.js:41-48 | as written: a 401 on any call clears the store, redirects, and still settles with the stub; the reload then boots anonymous, and the guard redirects every path |
| Flows.RejectedLoginSignsInAsWritten | stock_management_frontend/src/api/client.js:63-85 | as written: a failure status other than 401 to a login with both fields filled neither redirects nor clears the store, yet the login succeeds with stub-token, which a reload keeps |
| Flows.JsonLoginSignsIn | stock_management_frontend/src/context/AuthContext.js:27-37 | a 200 JSON login reply whose parsed `access_token` is non-empty signs the visitor in with that token, which a reload keeps |
| Flows.WidgetSearchOnItemsPage | stock_management_frontend/src/pages/Items.jsx:96-99 | searching "widget" offline shows the two widgets on page 1 of 1 |

## Left out

- Transport: `fetch`, HTTP methods, URLs, the query string and the JSON
  request bodies are not modelled. A call receives a `Transport`, which is
  either a response or a transport failure.
- Response bodies: JSON is not parsed. A body is kept as its text.
  `AuthSession.AccessToken` takes the `access_token` that parsing a JSON
  login reply would find as a parameter; it returns that value unchanged for
  every JSON body.
- 2xx read failures: a rejection from `res.json()` or `res.text()` on a 2xx
  response is not modelled. On a failure status, an unreadable body reads
  as `''`, which is the same as an empty body.
- Browser storage: `localStorage` is the persisted slot of `TokenStore.Store`.
- Page navigation: assigning `window.location.href` is the
  `redirectedToLogin` flag. The reload that follows is `TokenStore.Reload`
  plus `AuthSession.Init`.
- Timing: the stub login's 400 ms delay is not modelled. Once a call
  settles, its outcome does not depend on the delay.
- ApiClient.ApiLogin: on a 401, `handleResponse` starts a navigation to `/login`
  (`client.js:46`), and the stub login only answers when its 400 ms timer
  fires (`client.js:76-82`). The model settles the call with the stub
  anyway. In a browser the navigation may unload the page first, and then
  `login` never finishes. Which of the two happens first is not modelled.
- Randomness: the stub create's `Math.random()` id is the `randomId`
  parameter.
- Configuration: the `BASE_URL` environment lookup is not modelled.
- Prices: prices are whole cents. Floating point and `toFixed(2)` display
  are not modelled.
- Text.ToNumber: reads only optionally signed decimal integers around
  whitespace. JavaScript's `Number()` also reads fractions, exponents, hex
  and `Infinity`. Quantity and threshold are whole numbers, so those forms
  only matter there as unusual input.
- ItemsPage.CoercePrice: a typed price with more than two decimals, an
  exponent, hex digits or `Infinity` coerces to 0 here, while `Number()`
  reads it. A fraction of a cent has no value in cents.
- Text.Lower: folds ASCII letters only. `toLowerCase` folds all of Unicode.
  The stub catalogue and the queries in the lemmas are ASCII.
- React: hooks, memoisation, re-render timing and the `loading` spinner
  rendering are not modelled. `AuthSession.Init` runs the mount effect
  once. When the token changes after a login, the same effect re-saves the
  token that was just saved, which changes nothing.
- Stale responses: overlapping fetches can land out of order. This is a
  concurrency race and is not modelled.
- Browser validation: the HTML `required` and `min` attributes on the form
  inputs are not modelled. The model covers the submit handler's own check.
- Locations: a `Location` holds only its pathname and `state.from`.
  `search`, `hash` and `key` are not modelled.
- ItemsPage.PageCount: requires a non-zero page size. The page size starts
  at 10 and every reply's falsy size falls back to 10
  (`ItemsPage.PageSizeNeverZero`), so JavaScript's division by zero cannot
  arise. Fractional page sizes are not modelled.
- ItemsPage.ClickPager: requires the button to be enabled, because a
  disabled button delivers no click.
- Other files: `router.js` (react-router matching), `App.js` (theme),
  `AppLayout.jsx`, `Dashboard.jsx`, `Inventory.jsx` and `Reports.jsx` only
  render, apart from `??` and `||` defaulting of reply fields.

## Findings

| source | as written | input that shows it | evidently intended | confidence | as-written member | corrected member |
|---|---|---|---|---|---|---|
| stock_management_frontend/src/api/client.js:65-84 | Each client function's `catch` wraps both `fetch` and `handleResponse`. So a 401 or any other failure status resolves with the stub payload instead of rejecting. No HTTP failure ever reaches the pages' error branches. | `apiLogin("a@b.com", "wrong")` answered with 403 resolves `{access_token: "stub-token"}` (`ApiClient.RejectedLoginAcceptedAsWritten`). A 500 on the item listing shows the demo catalogue (`ApiClient.ServerErrorListsStubAsWritten`). | The stub answers only when the backend is unreachable. HTTP failures reject with `handleResponse`'s message (`ApiClient.StubOnlyWhenUnreachable`). | medium, not executed | ApiClient.CallAsWritten | ApiClient.Call |

=== FILE: api_client.dfy ===
/** The request-outcome layer of the API client: the headers every
    authenticated request carries, the classification of an HTTP response,
    and the fallback to a stub payload when the backend cannot be reached.
    The network is a parameter: each call is given what `fetch` produced,
    either a response or a transport failure. */
module ApiClient {
  import opened Wrappers
  import opened TokenStore
  import opened ApiStubs
  import Text

  // ---------------------------------------------------------------------------
  // Request headers
  // ---------------------------------------------------------------------------

  type Headers = map<string, string>

  const JsonContentType := "application/json"

  /** Headers to send, and the token store as reading the token left it. */
  datatype Prepared = Prepared(store: Store, headers: Headers)

  /** `authHeaders(extra)`: JSON content type, a bearer authorization when a
      token is stored, and the caller's `extra` entries spread last so that
      they override both. */
  function AuthHeaders(s: Store, extra: Headers): (r: Prepared)
    ensures r.store == GetAuthToken(s).store
    ensures "Content-Type" in r.headers
    ensures "Content-Type" !in extra ==> r.headers["Content-Type"] == JsonContentType
    ensures "Authorization" in r.headers <==> Present(GetAuthToken(s).token) || "Authorization" in extra
    ensures Present(GetAuthToken(s).token) && "Authorization" !in extra ==>
              r.headers["Authorization"] == "Bearer " + GetAuthToken(s).token.value
    ensures forall k :: k in extra ==> k in r.headers && r.headers[k] == extra[k]
    ensures forall k :: k in r.headers ==> k in extra || k == "Content-Type" || k == "Authorization"
  {
    var read := GetAuthToken(s);
    var base := map["Content-Type" := JsonContentType];
    var withAuth := if Present(read.token) then base["Authorization" := "Bearer " + read.token.value] else base;
    Prepared(read.store, withAuth + extra)
  }

  // ---------------------------------------------------------------------------
  // Response handling
  // ---------------------------------------------------------------------------

  /** What the client reads from a `fetch` response. `bodyText` is what
      `res.text()` yields; a failed read counts as the empty string, as the
      client's `.catch(() => '')` makes it. `contentType` is the
      `content-type` header, if any. */
  datatype Response = Response(status: nat, bodyText: string, contentType: Option<string>)

  /** `res.ok`: a 2xx status. */
  predicate IsOk(res: Response) {
    200 <= res.status <= 299
  }

  /** A successful body: to be parsed as JSON, or returned as raw text. */
  datatype Body = JsonBody(text: string) | TextBody(text: string)

  /** What `handleResponse` did: the store afterwards, whether it sent the
      browser to `/login`, and whether it resolved or threw (and with what). */
  datatype Handled = Handled(store: Store, redirectedToLogin: bool, result: Result<Body>)

  const StatusPrefix := "Request failed with status "

  /** `handleResponse(res)`. A 401 is looked at first: it clears the token
      store, sends the browser to the login page and throws "Unauthorized".
      Any other failure status throws the body text, or a status message when
      the body is empty. A 2xx is JSON exactly when its content type mentions
      `application/json`, and text otherwise. */
  function HandleResponse(s: Store, res: Response): (h: Handled)
    ensures h.redirectedToLogin <==> res.status == 401
    ensures res.status == 401 ==> h.store == Blank && h.result == Err("Unauthorized")
    ensures res.status != 401 ==> h.store == s
    ensures h.result.Ok? <==> IsOk(res)
    ensures res.status != 401 && !IsOk(res) && res.bodyText != "" ==> h.result.error == res.bodyText
    ensures res.status != 401 && !IsOk(res) && res.bodyText == "" ==>
              h.result.error == StatusPrefix + Text.ShowNat(res.status)
    ensures IsOk(res) ==> h.result.value.text == res.bodyText
    ensures IsOk(res) ==>
              (h.result.value.JsonBody? <==> Text.Contains(res.contentType.GetOr(""), JsonContentType))
  {
    if res.status == 401 then
      Handled(SetAuthToken(s, None), true, Err("Unauthorized"))
    else if !IsOk(res) then
      var msg := if res.bodyText != "" then res.bodyText else StatusPrefix + Text.ShowNat(res.status);
      Handled(s, false, Err(msg))
    else
      var ct := res.contentType.GetOr("");
      if Text.Contains(ct, JsonContentType) then Handled(s, false, Ok(JsonBody(res.bodyText)))
      else Handled(s, false, Ok(TextBody(res.bodyText)))
  }

  /** A failure with an empty body still names the status: the message is
      the fixed prefix followed by a numeral that reads back as the status. */
  lemma StatusMessageNamesStatus(s: Store, res: Response)
    requires res.status != 401 && !IsOk(res) && res.bodyText == ""
    ensures var m := HandleResponse(s, res).result.error;
            && |m| > |StatusPrefix|
            && m[..|StatusPrefix|] == StatusPrefix
            && Text.AllDigits(m[|StatusPrefix|..])
            && Text.ParseDigits(m[|StatusPrefix|..]) == res.status
  {
    var m := HandleResponse(s, res).result.error;
    assert m[|StatusPrefix|..] == Text.ShowNat(res.status);
    Text.ParseShowNat(res.status);
  }

  // ---------------------------------------------------------------------------
  // Calls with stub fallback
  // ---------------------------------------------------------------------------

  /** What `fetch` produced: a response, or a rejection because the backend
      could not be reached. */
  datatype Transport = Delivered(res: Response) | Unreachable

  /** A call's resolved value: a backend body or the stub payload. */
  datatype Reply<T> = FromBackend(body: Body) | FromStub(value: T)

  /** The outcome of one API call: the store afterwards, whether the browser
      was sent to `/login`, and the settled promise. */
  datatype CallResult<T> = CallResult(store: Store, redirectedToLogin: bool, result: Result<Reply<T>>)

  function StubResult<T>(stub: Result<T>): (r: Result<Reply<T>>)
    ensures r.Ok? <==> stub.Ok?
    ensures r.Ok? ==> r.value == FromStub(stub.value)
    ensures r.Err? ==> r.error == stub.error
  {
    match stub
    case Ok(v) => Ok(FromStub(v))
    case Err(e) => Err(e)
  }

  /** How a call of the client settles AS WRITTEN, stated without the
      pattern's code. `s` is the store the request was prepared from.
      - Only a 401 sends the browser to `/login`, and only a 401 empties
        the store.
      - A 2xx resolves with the backend's body: to be parsed as JSON when
        its content type mentions `application/json`, as raw text otherwise.
      - Every other outcome, whether the backend is unreachable or answered
        with a failure status, settles exactly as the stub does. */
  ghost predicate SettledAsWritten<T>(s: Store, t: Transport, stub: Result<T>, r: CallResult<T>) {
    && (r.redirectedToLogin <==> t.Delivered? && t.res.status == 401)
    && r.store == (if t.Delivered? && t.res.status == 401 then Blank else s)
    && (t.Delivered? && IsOk(t.res) ==>
          r.result == Ok(FromBackend(
            if Text.Contains(t.res.contentType.GetOr(""), JsonContentType) then JsonBody(t.res.bodyText)
            else TextBody(t.res.bodyText))))
    && (t.Unreachable? || !IsOk(t.res) ==> r.result == StubResult(stub))
  }

  /** The call pattern of every client function AS WRITTEN:
      `try { res = await fetch(..); return await handleResponse(res) } catch { stub }`.
      The `catch` also receives what `handleResponse` throws, so a 401 or
      any other failure status ends in the stub payload, after the 401 side
      effects have happened. */
  function CallAsWritten<T>(s: Store, t: Transport, stub: Result<T>): (r: CallResult<T>)
    ensures SettledAsWritten(s, t, stub, r)
  {
    match t
    case Unreachable => CallResult(s, false, StubResult(stub))
    case Delivered(res) =>
      var h := HandleResponse(s, res);
      match h.result
      case Ok(b) => CallResult(h.store, h.redirectedToLogin, Ok(FromBackend(b)))
      case Err(_) => CallResult(h.store, h.redirectedToLogin, StubResult(stub))
  }

  /** Wrong credentials refused by a live backend with a 403: nothing is
      redirected or cleared, and the stub accepts the same credentials. */
  lemma RejectedLoginAcceptedAsWritten()
    ensures var r := CallAsWritten(Store(None, None), Delivered(Response(403, "Forbidden", None)),
                                   StubLogin("a@b.com", "wrong"));
            && !r.redirectedToLogin
            && r.store == Store(None, None)
            && r.result == Ok(FromStub(LoginReply(StubToken)))
  {
  }

  /** A 500 from a live backend listing items is answered with the demo
      catalogue instead of an error. */
  lemma ServerErrorListsStubAsWritten(s: Store)
    ensures var r := CallAsWritten(s, Delivered(Response(500, "boom", None)), Ok(StubItems("", 1, 10)));
            && r.result.Ok?
            && r.result.value == FromStub(StubItems("", 1, 10))
  {
  }

  /** The call pattern with the fallback limited to transport failures, as
      the stubs' comments say they are meant: an HTTP failure settles the
      call with `handleResponse`'s error. */
  function Call<T>(s: Store, t: Transport, stub: Result<T>): (r: CallResult<T>)
    ensures t.Unreachable? ==> r == CallResult(s, false, StubResult(stub))
    ensures t.Delivered? ==> r.store == HandleResponse(s, t.res).store
    ensures t.Delivered? ==> r.redirectedToLogin == HandleResponse(s, t.res).redirectedToLogin
    ensures t.Delivered? ==> (r.result.Ok? <==> IsOk(t.res))
    ensures t.Delivered? && IsOk(t.res) ==> r.result == Ok(FromBackend(HandleResponse(s, t.res).result.value))
    ensures t.Delivered? && !IsOk(t.res) ==> r.result == Err(HandleResponse(s, t.res).result.error)
  {
    match t
    case Unreachable => CallResult(s, false, StubResult(stub))
    case Delivered(res) =>
      var h := HandleResponse(s, res);
      match h.result
      case Ok(b) => CallResult(h.store, h.redirectedToLogin, Ok(FromBackend(b)))
      case Err(e) => CallResult(h.store, h.redirectedToLogin, Err(e))
  }

  /** With the corrected pattern a stub payload can only come from an
      unreachable backend, and a 401 always rejects with "Unauthorized". */
  lemma StubOnlyWhenUnreachable<T>(s: Store, t: Transport, stub: Result<T>)
    ensures Call(s, t, stub).result.Ok? && Call(s, t, stub).result.value.FromStub? ==> t.Unreachable?
    ensures t.Delivered? && t.res.status == 401 ==>
              Call(s, t, stub) == CallResult(Blank, true, Err("Unauthorized"))
  {
  }

  /** The two patterns agree on every 2xx response and on transport failures. */
  lemma CallAgreesOutsideFailures<T>(s: Store, t: Transport, stub: Result<T>)
    requires t.Unreachable? || IsOk(t.res)
    ensures Call(s, t, stub) == CallAsWritten(s, t, stub)
  {
  }

  // ---------------------------------------------------------------------------
  // The client functions, as written
  // ---------------------------------------------------------------------------

  /** True when the call settles as its stub does: the backend was
      unreachable or answered with a failure status. */
  predicate StubAnswers(t: Transport) {
    t.Unreachable? || !IsOk(t.res)
  }

  /** `apiLogin(email, password)`. It sends no bearer token, so the store is
      only touched by a 401. Whenever the stub answers, the login succeeds
      exactly when both fields are filled, even after the backend refused
      them. */
  function ApiLogin(s: Store, email: string, password: string, t: Transport): (r: CallResult<LoginReply>)
    ensures SettledAsWritten(s, t, StubLogin(email, password), r)
    ensures StubAnswers(t) ==> (r.result.Ok? <==> email != "" && password != "")
    ensures StubAnswers(t) && r.result.Ok? ==> r.result.value == FromStub(LoginReply(StubToken))
    ensures StubAnswers(t) && r.result.Err? ==> r.result.error == "Invalid credentials"
  {
    CallAsWritten(s, t, StubLogin(email, password))
  }

  /** `getItems({ q, page, pageSize })`: reads the token for its headers
      (caching it), and settles with the stub page whenever the stub
      answers. */
  function GetItems(s: Store, q: string, page: int, pageSize: int, t: Transport): (r: CallResult<ItemsPage>)
    ensures SettledAsWritten(GetAuthToken(s).store, t, Ok(StubItems(q, page, pageSize)), r)
    ensures StubAnswers(t) ==> r.result == Ok(FromStub(StubItems(q, page, pageSize)))
  {
    CallAsWritten(AuthHeaders(s, map[]).store, t, Ok(StubItems(q, page, pageSize)))
  }

  /** `createItem(fields)`; `randomId` is the id the stub would draw. */
  function CreateItem(s: Store, f: ItemFields, randomId: int, t: Transport): (r: CallResult<Item>)
    requires 0 <= randomId < 100000
    ensures SettledAsWritten(GetAuthToken(s).store, t, Ok(StubCreate(randomId, f)), r)
    ensures StubAnswers(t) ==> r.result.Ok? && r.result.value.FromStub?
    ensures StubAnswers(t) ==> var item := r.result.value.value;
                               FieldsOf(item) == f && 0 <= item.id < 100000
  {
    CallAsWritten(AuthHeaders(s, map[]).store, t, Ok(StubCreate(randomId, f)))
  }

  /** `updateItem(id, fields)`. */
  function UpdateItem(s: Store, id: int, f: ItemFields, t: Transport): (r: CallResult<Item>)
    ensures SettledAsWritten(GetAuthToken(s).store, t, Ok(StubUpdate(id, f)), r)
    ensures StubAnswers(t) ==> r.result == Ok(FromStub(WithId(id, f)))
  {
    CallAsWritten(AuthHeaders(s, map[]).store, t, Ok(StubUpdate(id, f)))
  }

  /** `deleteItem(id)`. */
  function DeleteItem(s: Store, id: int, t: Transport): (r: CallResult<DeleteReply>)
    ensures SettledAsWritten(GetAuthToken(s).store, t, Ok(StubDelete(id)), r)
    ensures StubAnswers(t) ==> r.result == Ok(FromStub(DeleteReply(true)))
  {
    CallAsWritten(AuthHeaders(s, map[]).store, t, Ok(StubDelete(id)))
  }

  /** `getLowStock()`. */
  function GetLowStock(s: Store, t: Transport): (r: CallResult<LowStock>)
    ensures SettledAsWritten(GetAuthToken(s).store, t, Ok(StubLowStock()), r)
    ensures StubAnswers(t) ==> r.result == Ok(FromStub(StubLowStock()))
    ensures StubAnswers(t) ==> r.result.value.value.count == 2 &&
                               r.result.value.value.items == [WidgetA, GadgetC]
  {
    CallAsWritten(AuthHeaders(s, map[]).store, t, Ok(StubLowStock()))
  }

  /** `getKpis()`. */
  function GetKpis(s: Store, t: Transport): (r: CallResult<Kpis>)
    ensures SettledAsWritten(GetAuthToken(s).store, t, Ok(StubKpis()), r)
    ensures StubAnswers(t) ==> r.result == Ok(FromStub(Kpis(3, 2, 7)))
  {
    CallAsWritten(AuthHeaders(s, map[]).store, t, Ok(StubKpis()))
  }
}

=== FILE: api_stubs.dfy ===
/** The fixed payloads the API client answers with when the backend cannot
    be reached: the demo catalogue and the stub branch of every call.
    Prices are whole cents (12.5 is 1250). */
module ApiStubs {
  import opened Wrappers
  import Text
  import Seqs

  datatype Item = Item(id: int, name: string, sku: string, quantity: int, reorderThreshold: int, price: int)

  /** The editable fields of an item: what create and update send. */
  datatype ItemFields = ItemFields(name: string, sku: string, quantity: int, reorderThreshold: int, price: int)

  function FieldsOf(i: Item): ItemFields {
    ItemFields(i.name, i.sku, i.quantity, i.reorderThreshold, i.price)
  }

  /** `{ id, ...fields }`. */
  function WithId(id: int, f: ItemFields): Item {
    Item(id, f.name, f.sku, f.quantity, f.reorderThreshold, f.price)
  }

  const WidgetA := Item(1, "Widget A", "WID-A", 5, 10, 1250)
  const WidgetB := Item(2, "Widget B", "WID-B", 20, 15, 799)
  const GadgetC := Item(3, "Gadget C", "GAD-C", 2, 5, 2500)

  /** The demo catalogue of the item listing stub. */
  function Catalog(): seq<Item> {
    [WidgetA, WidgetB, GadgetC]
  }

  // ---------------------------------------------------------------------------
  // Login
  // ---------------------------------------------------------------------------

  /** The resolved value of a login: `{ access_token }`. */
  datatype LoginReply = LoginReply(accessToken: string)

  const StubToken := "stub-token"

  /** Stub login: accepts any non-empty email with any non-empty password. */
  function StubLogin(email: string, password: string): (r: Result<LoginReply>)
    ensures r.Ok? <==> email != "" && password != ""
    ensures r.Ok? ==> r.value.accessToken == StubToken && r.value.accessToken != ""
    ensures r.Err? ==> r.error == "Invalid credentials"
  {
    if email != "" && password != "" then Ok(LoginReply(StubToken))
    else Err("Invalid credentials")
  }

  // ---------------------------------------------------------------------------
  // Item listing
  // ---------------------------------------------------------------------------

  /** The stub search: an empty query matches everything, otherwise the
      lower-cased query must occur in the lower-cased name or SKU. */
  predicate MatchesQuery(i: Item, q: string) {
    || q == ""
    || Text.Contains(Text.Lower(i.name), Text.Lower(q))
    || Text.Contains(Text.Lower(i.sku), Text.Lower(q))
  }

  /** The stub's filter callback for query `q`. */
  function Matcher(q: string): Item -> bool {
    (i: Item) => MatchesQuery(i, q)
  }

  /** The catalogue items matching `q`, in catalogue order. */
  function SearchCatalog(q: string): seq<Item> {
    Seqs.Filter(Catalog(), Matcher(q))
  }

  /** A page of the item listing: `{ items, total, page, pageSize }`. */
  datatype ItemsPage = ItemsPage(items: seq<Item>, total: int, page: int, pageSize: int)

  /** Stub `getItems({ q, page, pageSize })`: the first `pageSize` matches
      (with the `slice` reading of a negative size), the number of all
      matches, and the requested page and size echoed back. */
  function StubItems(q: string, page: int, pageSize: int): (r: ItemsPage)
    ensures r.total == |SearchCatalog(q)|
    ensures r.items <= SearchCatalog(q)
    ensures 0 <= pageSize ==> |r.items| == if pageSize < r.total then pageSize else r.total
    ensures r.page == page && r.pageSize == pageSize
    ensures forall k :: 0 <= k < |r.items| ==> MatchesQuery(r.items[k], q) && r.items[k] in Catalog()
  {
    var all := SearchCatalog(q);
    var items := Seqs.Slice(all, pageSize);
    Seqs.PrefixOfFilter(Catalog(), Matcher(q), items);
    ItemsPage(items, |all|, page, pageSize)
  }

  /** An empty query lists the whole catalogue when the page is big enough. */
  lemma EmptyQueryListsCatalog(page: int, pageSize: int)
    requires pageSize >= |Catalog()|
    ensures StubItems("", page, pageSize).items == Catalog()
    ensures StubItems("", page, pageSize).total == 3
  {
    EmptyQueryKeepsAll();
    assert Seqs.Slice(Catalog(), pageSize) == Catalog();
  }

  lemma EmptyQueryKeepsAll()
    ensures SearchCatalog("") == Catalog()
  {
    EmptyQueryMatchesAll(Catalog());
  }

  lemma EmptyQueryMatchesAll(xs: seq<Item>)
    ensures Seqs.Filter(xs, Matcher("")) == xs
  {
    Seqs.FilterAll(xs, Matcher(""));
  }

  /** Searching "widget" finds the two widgets by name, and not the gadget. */
  lemma WidgetSearch()
    ensures StubItems("widget", 1, 10).items == [WidgetA, WidgetB]
    ensures StubItems("widget", 1, 10).total == 2
  {
    WidgetCatalogSearch();
    assert Seqs.Slice([WidgetA, WidgetB], 10) == [WidgetA, WidgetB];
  }

  lemma WidgetCatalogSearch()
    ensures SearchCatalog("widget") == [WidgetA, WidgetB]
  {
    WidgetsMatch();
    GadgetDoesNotMatch();
    FilterKeepsFirstTwo(WidgetA, WidgetB, GadgetC, Matcher("widget"));
  }

  /** Filtering three items that pass, pass and fail keeps the first two. */
  lemma FilterKeepsFirstTwo(a: Item, b: Item, c: Item, p: Item -> bool)
    requires p(a) && p(b) && !p(c)
    ensures Seqs.Filter([a, b, c], p) == [a, b]
  {
    assert [c][1..] == [];
    assert Seqs.Filter([c], p) == [];
    assert [b, c][1..] == [c];
    assert Seqs.Filter([b, c], p) == [b];
    assert [a, b, c][1..] == [b, c];
  }

  // The lemmas from here to `LowerGadgetSku` are scaffolding for the literal
  // catalogue: each settles one fold or match over fixed strings, so that the
  // `WidgetSearch` and `GadgetDoesNotMatch` proofs stay small.

  lemma WidgetsMatch()
    ensures MatchesQuery(WidgetA, "widget") && MatchesQuery(WidgetB, "widget")
  {
    WidgetAMatches();
    WidgetBMatches();
  }

  lemma WidgetAMatches()
    ensures MatchesQuery(WidgetA, "widget")
  {
    LowerWidget();
    LowerWidgetA();
    NamePrefixMatches(WidgetA, "widget");
  }

  lemma WidgetBMatches()
    ensures MatchesQuery(WidgetB, "widget")
  {
    LowerWidget();
    LowerWidgetB();
    NamePrefixMatches(WidgetB, "widget");
  }

  /** An item whose folded name starts with the folded query matches it. */
  lemma NamePrefixMatches(i: Item, q: string)
    requires Text.StartsWith(Text.Lower(i.name), Text.Lower(q))
    ensures MatchesQuery(i, q)
  {
  }

  lemma GadgetDoesNotMatch()
    ensures !MatchesQuery(GadgetC, "widget")
  {
    GadgetLacksW();
    FirstCharMissing(GadgetC, "widget");
  }

  lemma GadgetLacksW()
    ensures Text.Lower("widget")[0] == 'w'
    ensures 'w' !in Text.Lower(GadgetC.name) && 'w' !in Text.Lower(GadgetC.sku)
  {
    LowerWidget();
    GadgetNameLacksW();
    GadgetSkuLacksW();
  }

  lemma GadgetNameLacksW()
    ensures 'w' !in Text.Lower("Gadget C")
  {
    LowerGadgetName();
  }

  lemma GadgetSkuLacksW()
    ensures 'w' !in Text.Lower("GAD-C")
  {
    LowerGadgetSku();
  }

  /** An item whose folded name and SKU both lack the first character of
      the folded query does not match it. */
  lemma FirstCharMissing(i: Item, q: string)
    requires q != ""
    requires Text.Lower(q)[0] !in Text.Lower(i.name) && Text.Lower(q)[0] !in Text.Lower(i.sku)
    ensures !MatchesQuery(i, q)
  {
    Text.MissingFirstCharNotContained(Text.Lower(i.name), Text.Lower(q));
    Text.MissingFirstCharNotContained(Text.Lower(i.sku), Text.Lower(q));
  }

  lemma LowerWidget()
    ensures Text.Lower("widget") == "widget"
  {
  }

  lemma LowerWidgetA()
    ensures Text.Lower("Widget A") == "widget a"
  {
  }

  lemma LowerWidgetB()
    ensures Text.Lower("Widget B") == "widget b"
  {
  }

  lemma LowerGadgetName()
    ensures Text.Lower("Gadget C") == "gadget c"
  {
  }

  lemma LowerGadgetSku()
    ensures Text.Lower("GAD-C") == "gad-c"
  {
  }

  // ---------------------------------------------------------------------------
  // Low stock, KPIs, writes
  // ---------------------------------------------------------------------------

  /** The low-stock rule: quantity at or below the reorder threshold. */
  predicate IsLowStock(i: Item) {
    i.quantity <= i.reorderThreshold
  }

  /** `{ items, count }`. */
  datatype LowStock = LowStock(items: seq<Item>, count: int)

  /** Stub `getLowStock()`: a list of low-stock catalogue items and its length. */
  function StubLowStock(): (r: LowStock)
    ensures r.count == |r.items|
    ensures forall k :: 0 <= k < |r.items| ==> IsLowStock(r.items[k]) && r.items[k] in Catalog()
  {
    LowStock([WidgetA, GadgetC], 2)
  }

  /** The stub low-stock list is exactly the low-stock part of the catalogue. */
  lemma StubLowStockIsCatalogFilter()
    ensures StubLowStock().items == Seqs.Filter(Catalog(), IsLowStock)
  {
    assert Catalog()[1..] == [WidgetB, GadgetC];
    assert [WidgetB, GadgetC][1..] == [GadgetC];
    assert Seqs.Filter([GadgetC], IsLowStock) == [GadgetC];
  }

  /** `{ total_items, low_stock, recent_movements }`. */
  datatype Kpis = Kpis(totalItems: int, lowStock: int, recentMovements: int)

  /** Stub `getKpis()`: its counts agree with the other stubs. */
  function StubKpis(): (r: Kpis)
    ensures r.totalItems == |Catalog()|
    ensures r.lowStock == StubLowStock().count
    ensures r.recentMovements == 7
  {
    Kpis(3, 2, 7)
  }

  /** Stub `createItem(fields)`: the fields with the random id the caller drew
      (`Math.floor(Math.random() * 100000)`). */
  function StubCreate(randomId: int, f: ItemFields): (r: Item)
    requires 0 <= randomId < 100000
    ensures FieldsOf(r) == f
    ensures 0 <= r.id < 100000
  {
    WithId(randomId, f)
  }

  /** Stub `updateItem(id, fields)`: the item as it would now be stored. */
  function StubUpdate(id: int, f: ItemFields): (r: Item)
    ensures r.id == id && FieldsOf(r) == f
  {
    WithId(id, f)
  }

  /** `{ success }`. */
  datatype DeleteReply = DeleteReply(success: bool)

  /** Stub `deleteItem(id)`: always reports success. */
  function StubDelete(id: int): (r: DeleteReply)
    ensures r.success
  {
    DeleteReply(true)
  }
}

=== FILE: auth_session.dfy ===
/** The session context shared by every page: the current token, the user,
    whether a login is in flight and the last login error. Whether the
    visitor is authenticated is derived from the token alone. */
module AuthSession {
  import opened Wrappers
  import opened TokenStore
  import ApiStubs
  import ApiClient

  datatype Session = Session(token: Option<string>, user: Option<string>, loading: bool, error: string)

  /** `isAuthenticated: !!token`; the session has no separate flag. */
  predicate IsAuthenticated(s: Session) {
    Present(s.token)
  }

  /** The identity shown for a session restored from a saved token. */
  const PlaceholderEmail := "admin@example.com"

  /** The session says "authenticated" exactly when reading the store would
      yield a token, and then it holds that same token. */
  predicate Agrees(s: Session, store: Store) {
    && (IsAuthenticated(s) <==> Present(GetAuthToken(store).token))
    && (IsAuthenticated(s) ==> s.token == GetAuthToken(store).token)
  }

  datatype Boot = Boot(session: Session, store: Store)

  /** Mounting the provider: the token comes from the store, the user is the
      placeholder exactly when there is a token, and the mount effect saves
      a truthy token again. */
  function Init(store: Store): (b: Boot)
    ensures b.session.token == GetAuthToken(store).token
    ensures b.session.user.Some? <==> IsAuthenticated(b.session)
    ensures b.session.user.Some? ==> b.session.user.value == PlaceholderEmail
    ensures !b.session.loading && b.session.error == ""
    ensures Agrees(b.session, b.store)
  {
    var read := GetAuthToken(store);
    var user := if Present(read.token) then Some(PlaceholderEmail) else None;
    var saved := if Present(read.token) then SetAuthToken(read.store, read.token) else read.store;
    Boot(Session(read.token, user, false, ""), saved)
  }

  /** Every attempt begins by clearing the error and raising `loading`. */
  function LoginStart(s: Session): (r: Session)
    ensures r.loading && r.error == ""
    ensures r.token == s.token && r.user == s.user
  {
    Session(s.token, s.user, true, "")
  }

  /** One login attempt after it settled: the session and store afterwards,
      and the boolean `login` returns. */
  datatype LoginStep = LoginStep(session: Session, store: Store, ok: bool)

  const InvalidResponse := "Invalid login response"
  const LoginFailed := "Login failed"

  /** How a login attempt settles. `reply` is `apiLogin`'s outcome reduced
      to what the context reads: the `access_token` field of the resolved
      value (`None` when missing), or the rejection message. A truthy token
      signs the user in under the submitted email; anything else clears the
      token, the user and the store and records why. */
  function LoginFinish(s: Session, store: Store, email: string, reply: Result<Option<string>>): (r: LoginStep)
    ensures r.ok <==> reply.Ok? && Present(reply.value)
    ensures IsAuthenticated(r.session) <==> r.ok
    ensures !r.session.loading
    ensures r.ok ==> r.session.token == reply.value && r.session.user == Some(email)
    ensures r.ok ==> r.store == SetAuthToken(store, reply.value) && r.session.error == s.error
    ensures !r.ok ==> r.session.token.None? && r.session.user.None? && r.store == Blank
    ensures reply.Ok? && !Present(reply.value) ==> r.session.error == InvalidResponse
    ensures reply.Err? && reply.error != "" ==> r.session.error == reply.error
    ensures reply.Err? && reply.error == "" ==> r.session.error == LoginFailed
    ensures Agrees(r.session, r.store)
  {
    var failure :=
      if reply.Err? then (if reply.error != "" then reply.error else LoginFailed)
      else InvalidResponse;
    if reply.Ok? && Present(reply.value) then
      LoginStep(Session(reply.value, Some(email), false, s.error), SetAuthToken(store, reply.value), true)
    else
      LoginStep(Session(None, None, false, failure), SetAuthToken(store, None), false)
  }

  /** `login(email, password)` from start to end, given how `apiLogin` settled. */
  function Login(s: Session, store: Store, email: string, reply: Result<Option<string>>): (r: LoginStep)
    ensures r.ok <==> reply.Ok? && Present(reply.value)
    ensures r.ok ==> r.session.error == ""
    ensures !r.session.loading
    ensures Agrees(r.session, r.store)
  {
    LoginFinish(LoginStart(s), store, email, reply)
  }

  /** The `access_token` the context reads off `apiLogin`'s result. A backend
      body's token comes from parsing the JSON, which is outside the model:
      `parsed` is what parsing found. A text body has no fields. */
  function AccessToken(r: Result<ApiClient.Reply<ApiStubs.LoginReply>>, parsed: Option<string>): (t: Result<Option<string>>)
    ensures r.Err? ==> t == Err(r.error)
    ensures r.Ok? && r.value.FromStub? ==> t == Ok(Some(r.value.value.accessToken))
    ensures r.Ok? && r.value.FromBackend? && r.value.body.JsonBody? ==> t == Ok(parsed)
    ensures r.Ok? && r.value.FromBackend? && r.value.body.TextBody? ==> t == Ok(None)
  {
    match r
    case Err(e) => Err(e)
    case Ok(FromStub(reply)) => Ok(Some(reply.accessToken))
    case Ok(FromBackend(body)) => if body.JsonBody? then Ok(parsed) else Ok(None)
  }

  /** `logout()`: token, user and store cleared; nothing else changes. */
  function Logout(s: Session, store: Store): (r: Boot)
    ensures !IsAuthenticated(r.session) && r.session.user.None?
    ensures r.session.loading == s.loading && r.session.error == s.error
    ensures r.store == Blank
    ensures Agrees(r.session, r.store)
  {
    Boot(Session(None, None, s.loading, s.error), SetAuthToken(store, None))
  }

  /** With the backend unreachable, a login with both fields filled signs in
      with the stub token; with either empty it fails with the stub's message. */
  lemma StubLoginOutcome(s: Session, store: Store, email: string, password: string)
    ensures var call := ApiClient.ApiLogin(store, email, password, ApiClient.Unreachable);
            var r := Login(s, call.store, email, AccessToken(call.result, None));
            && (r.ok <==> email != "" && password != "")
            && (r.ok ==> r.session.token == Some(ApiStubs.StubToken) && r.session.user == Some(email))
            && (!r.ok ==> r.session.error == "Invalid credentials")
  {
  }

  /** A restored session survives a reload: booting again from the store
      that a successful login left yields the same token. */
  lemma LoginSurvivesReload(s: Session, store: Store, email: string, reply: Result<Option<string>>)
    requires Login(s, store, email, reply).ok
    ensures var r := Login(s, store, email, reply);
            Init(Reload(r.store)).session.token == r.session.token
  {
  }
}

=== FILE: flows.dfy ===
/** Properties that follow a user across files: the guard, the login page,
    the session and the API client together, and the items page fed by the
    API client. */
module Flows {
  import opened Wrappers
  import opened TokenStore
  import opened Navigation
  import ApiStubs
  import ApiClient
  import AuthSession
  import ProtectedRoute
  import LoginPage
  import ItemsPage

  /** The guard's redirect, followed: the login page's location. */
  function LoginLocationFor(requested: Location): (l: Location)
    ensures l.pathname == LoginPath && l.from == Some(requested)
  {
    Follow(ProtectedRoute.Guard(false, requested, ()).nav)
  }

  /** An anonymous visitor asking for protected path `p` is sent to the
      login page, which shows its form and remembers `p`; a login that
      succeeds navigates back to `p`, where the guard now renders the page. */
  lemma ProtectedPathReturnsAfterLogin<C>(
    requested: Location, children: C, s: AuthSession.Session, store: Store,
    email: string, password: string, reply: Result<Option<string>>)
    requires requested.pathname != ""
    requires !AuthSession.IsAuthenticated(s)
    requires email != "" && password != ""
    requires reply.Ok? && Present(reply.value)
    ensures var g := ProtectedRoute.Guard(AuthSession.IsAuthenticated(s), requested, children);
            && g == ProtectedRoute.Redirect(Nav(LoginPath, true, Some(requested)))
            && var at := Follow(g.nav);
               && LoginPage.ReturnTarget(at) == requested.pathname
               && LoginPage.Render(AuthSession.IsAuthenticated(s), at) == LoginPage.ShowForm
               && LoginPage.Submit(email, password) == LoginPage.CallLogin(email, password)
               && var step := AuthSession.Login(s, store, email, reply);
                  && step.ok
                  && LoginPage.AfterLogin(step.ok, at) == Some(Nav(requested.pathname, true, None))
                  && ProtectedRoute.Guard(AuthSession.IsAuthenticated(step.session),
                                          Follow(LoginPage.AfterLogin(step.ok, at).value), children)
                     == ProtectedRoute.Render(children)
  {
  }

  /** The same journey against an unreachable backend: `/items` requested
      anonymously, the stub accepts `a@b.com` / `x`, and the visitor lands
      back on `/items` holding the stub token. */
  lemma StubJourneyToItems(s: AuthSession.Session, store: Store)
    requires !AuthSession.IsAuthenticated(s)
    ensures var at := LoginLocationFor(Location("/items", None));
            var call := ApiClient.ApiLogin(store, "a@b.com", "x", ApiClient.Unreachable);
            var step := AuthSession.Login(s, call.store, "a@b.com", AuthSession.AccessToken(call.result, None));
            && step.ok
            && step.session.token == Some(ApiStubs.StubToken)
            && LoginPage.AfterLogin(step.ok, at) == Some(Nav("/items", true, None))
  {
    var call := ApiClient.ApiLogin(store, "a@b.com", "x", ApiClient.Unreachable);
    assert AuthSession.AccessToken(call.result, None) == Ok(Some(ApiStubs.StubToken));
  }

  /** A login that fails leaves the visitor on the login page, anonymous. */
  lemma FailedLoginStays(s: AuthSession.Session, store: Store, email: string, at: Location,
                         reply: Result<Option<string>>)
    requires reply.Err? || !Present(reply.value)
    ensures var step := AuthSession.Login(s, store, email, reply);
            && LoginPage.AfterLogin(step.ok, at).None?
            && LoginPage.Render(AuthSession.IsAuthenticated(step.session), at) == LoginPage.ShowForm
  {
  }

  /** A 401 on any call, as the client is written: the store is emptied and
      the browser sent to `/login`, while the call itself settles as its stub
      does. The page load that follows boots an anonymous session, which the
      guard turns away from every path. */
  lemma UnauthorizedEndsSession<T, C>(store: Store, res: ApiClient.Response, stub: Result<T>,
                                      requested: Location, children: C)
    requires res.status == 401
    ensures var call := ApiClient.CallAsWritten(store, ApiClient.Delivered(res), stub);
            && call.redirectedToLogin
            && call.store == Blank
            && call.result == ApiClient.StubResult(stub)
            && var boot := AuthSession.Init(Reload(call.store));
               && !AuthSession.IsAuthenticated(boot.session)
               && ProtectedRoute.Guard(AuthSession.IsAuthenticated(boot.session), requested, children)
                  == ProtectedRoute.Redirect(Nav(LoginPath, true, Some(requested)))
  {
  }

  /** Credentials refused by a live backend with any failure status other
      than 401, as the client is written: nothing redirects or clears the
      store, the stub then accepts the filled-in fields, and the context
      signs the visitor in and saves the stub token. */
  lemma RejectedLoginSignsInAsWritten(s: AuthSession.Session, store: Store, res: ApiClient.Response,
                                      email: string, password: string)
    requires res.status != 401 && !ApiClient.IsOk(res)
    requires email != "" && password != ""
    ensures var call := ApiClient.ApiLogin(store, email, password, ApiClient.Delivered(res));
            var step := AuthSession.Login(s, call.store, email, AuthSession.AccessToken(call.result, None));
            && !call.redirectedToLogin
            && call.store == store
            && step.ok
            && step.session.token == Some(ApiStubs.StubToken)
            && GetAuthToken(Reload(step.store)).token == Some(ApiStubs.StubToken)
  {
  }

  /** A live backend that accepts the credentials with a 200 JSON reply
      carrying the token `tok`: nothing redirects, and the context signs the
      visitor in with `tok`, which a reload keeps. */
  lemma JsonLoginSignsIn(s: AuthSession.Session, store: Store, body: string,
                         email: string, password: string, tok: string)
    requires tok != ""
    ensures var res := ApiClient.Response(200, body, Some(ApiClient.JsonContentType));
            var call := ApiClient.ApiLogin(store, email, password, ApiClient.Delivered(res));
            var step := AuthSession.Login(s, call.store, email, AuthSession.AccessToken(call.result, Some(tok)));
            && !call.redirectedToLogin
            && call.result == Ok(ApiClient.FromBackend(ApiClient.JsonBody(body)))
            && step.ok
            && step.session.token == Some(tok)
            && GetAuthToken(Reload(step.store)).token == Some(tok)
  {
  }

  /** Searching "widget" on the items page with the backend unreachable:
      the page fetches page 1 and ends up showing the two widgets, on page 1
      of 1. */
  lemma WidgetSearchOnItemsPage(st: ItemsPage.State, store: Store)
    requires st.q == "widget" && st.meta.pageSize == 10
    ensures var step := ItemsPage.Search(st);
            var req := step.fetch;
            var call := ApiClient.GetItems(store, req.q, req.page, req.pageSize, ApiClient.Unreachable);
            && call.result.Ok? && call.result.value.FromStub?
            && var r := ItemsPage.ApplyFetch(step.state, Ok(ItemsPage.FullReply(call.result.value.value)));
               && r.items == [ApiStubs.WidgetA, ApiStubs.WidgetB]
               && r.meta == ItemsPage.Meta(1, 10, 2)
               && ItemsPage.PageCount(r.meta, |r.items|) == 1
  {
    var step := ItemsPage.Search(st);
    assert step.fetch == ItemsPage.FetchRequest("widget", 1, 10);
    var page := ApiStubs.StubItems("widget", 1, 10);
    var call := ApiClient.GetItems(store, "widget", 1, 10, ApiClient.Unreachable);
    assert call.result == Ok(ApiClient.FromStub(page));
    ApiStubs.WidgetSearch();
    ItemsPage.StubReplyApplied(step.state, step.fetch);
    var r := ItemsPage.ApplyFetch(step.state, Ok(ItemsPage.FullReply(page)));
    assert r.meta == ItemsPage.Meta(1, 10, 2);
    TwoRowsOnePage(r.meta, r.items);
  }

  lemma TwoRowsOnePage(meta: ItemsPage.Meta, items: seq<ApiStubs.Item>)
    requires meta == ItemsPage.Meta(1, 10, 2)
    ensures ItemsPage.PageCount(meta, |items|) == 1
  {
  }
}

=== FILE: items_page.dfy ===
/** The items page: pagination arithmetic and buttons, the edit form with
    its validation and normalisation, the create/update/delete dispatch, and
    how a listing reply is folded into the page state. API calls are not made
    here: a handler returns the call it would issue, and a second function
    takes how that call settled. */
module ItemsPage {
  import opened Wrappers
  import opened ApiStubs
  import Text

  datatype Meta = Meta(page: int, pageSize: int, total: int)

  /** A numeric form field: a number copied from an item, or what the user
      typed into the input. */
  datatype FieldValue = Num(n: int) | Typed(text: string)

  datatype Form = Form(name: string, sku: string, quantity: FieldValue, reorderThreshold: FieldValue, price: FieldValue)

  /** `emptyItem`. */
  const EmptyForm := Form("", "", Num(0), Num(0), Num(0))

  datatype State = State(
    items: seq<Item>,
    meta: Meta,
    q: string,
    loading: bool,
    editing: Option<Item>,
    form: Form,
    error: string)

  const Initial := State([], Meta(1, 10, 0), "", false, None, EmptyForm, "")

  // ---------------------------------------------------------------------------
  // Page count and the pager buttons
  // ---------------------------------------------------------------------------

  /** `Math.ceil(a / b)` on integers. */
  function CeilDiv(a: int, b: int): (r: int)
    requires b != 0
    ensures b > 0 ==> (r - 1) * b < a <= r * b
    ensures b < 0 ==> r * b <= a < (r - 1) * b
  {
    if b > 0 then
      var q := (-a) / b;
      assert -a == q * b + (-a) % b;
      0 - q
    else
      var q := a / (-b);
      assert a == q * (-b) + a % (-b);
      0 - q
  }

  /** `meta.total || items.length || 1`: the row count pages are cut from. */
  function PageBase(meta: Meta, itemCount: nat): (r: int)
    ensures r != 0
    ensures meta.total != 0 ==> r == meta.total
    ensures meta.total == 0 && itemCount != 0 ==> r == itemCount
    ensures meta.total == 0 && itemCount == 0 ==> r == 1
  {
    if meta.total != 0 then meta.total else if itemCount != 0 then itemCount else 1
  }

  /** `Math.max(1, Math.ceil(base / meta.pageSize))`. The page size is never
      zero: it starts at 10 and a reply's falsy size falls back to 10. */
  function PageCount(meta: Meta, itemCount: nat): (r: int)
    requires meta.pageSize != 0
    ensures r >= 1
    ensures r == 1 || r == CeilDiv(PageBase(meta, itemCount), meta.pageSize)
    ensures r >= CeilDiv(PageBase(meta, itemCount), meta.pageSize)
  {
    var c := CeilDiv(PageBase(meta, itemCount), meta.pageSize);
    if c < 1 then 1 else c
  }

  /** For a positive base and page size the count is the least number of
      pages that hold every row: one page fewer would not. */
  lemma PageCountIsCeiling(meta: Meta, itemCount: nat)
    requires meta.pageSize > 0 && PageBase(meta, itemCount) > 0
    ensures var n := PageCount(meta, itemCount);
            (n - 1) * meta.pageSize < PageBase(meta, itemCount) <= n * meta.pageSize
  {
  }

  /** 25 rows at 10 per page make 3 pages. */
  lemma PageCountExample(page: int, itemCount: nat)
    ensures PageCount(Meta(page, 10, 25), itemCount) == 3
  {
  }

  /** A pager button: whether it is disabled, and the page its click handler
      computes. */
  datatype PagerButton = PagerButton(disabled: bool, target: int)

  /** Prev: disabled on page 1 or below; its target never drops below 1. */
  function PrevButton(meta: Meta): (r: PagerButton)
    ensures r.disabled <==> meta.page <= 1
    ensures r.target >= 1
    ensures !r.disabled ==> r.target == meta.page - 1
  {
    PagerButton(meta.page <= 1, if meta.page - 1 > 1 then meta.page - 1 else 1)
  }

  /** Next: disabled on the last page or beyond; its target never passes it. */
  function NextButton(meta: Meta, pageCount: int): (r: PagerButton)
    ensures r.disabled <==> meta.page >= pageCount
    ensures r.target <= pageCount
    ensures !r.disabled ==> r.target == meta.page + 1
  {
    PagerButton(meta.page >= pageCount, if pageCount < meta.page + 1 then pageCount else meta.page + 1)
  }

  /** The pager of the worked example: 3 pages, Prev off on page 1, Next off
      on page 3. */
  lemma PagerExample(itemCount: nat)
    ensures PageCount(Meta(1, 10, 25), itemCount) == 3
    ensures PrevButton(Meta(1, 10, 25)).disabled
    ensures !NextButton(Meta(1, 10, 25), 3).disabled
    ensures NextButton(Meta(3, 10, 25), 3).disabled
    ensures !PrevButton(Meta(3, 10, 25)).disabled
  {
  }

  // ---------------------------------------------------------------------------
  // Fetching
  // ---------------------------------------------------------------------------

  /** The arguments `fetchData` passes to `getItems`. */
  datatype FetchRequest = FetchRequest(q: string, page: int, pageSize: int)

  /** A handler's effect: the new state and the listing request it issued. */
  datatype Step = Step(state: State, fetch: FetchRequest)

  /** `fetchData(opts)` up to the request: `loading` goes up and the request
      takes the search text and the page size from the state and the page
      from `opts` when given. */
  function StartFetch(st: State, page: Option<int>): (r: Step)
    ensures r.state == st.(loading := true)
    ensures r.fetch.q == st.q && r.fetch.pageSize == st.meta.pageSize
    ensures r.fetch.page == page.GetOr(st.meta.page)
  {
    Step(st.(loading := true), FetchRequest(st.q, page.GetOr(st.meta.page), st.meta.pageSize))
  }

  /** A click on an enabled pager button: the page moves to the target and
      that page is fetched. */
  function ClickPager(st: State, b: PagerButton): (r: Step)
    requires !b.disabled
    ensures r.state == st.(meta := st.meta.(page := b.target), loading := true)
    ensures r.fetch == FetchRequest(st.q, b.target, st.meta.pageSize)
  {
    StartFetch(st.(meta := st.meta.(page := b.target)), Some(b.target))
  }

  /** Paging from a page inside `[1, pageCount]` stays inside it, and the
      page count itself is unchanged by the click. */
  lemma PagingStaysInRange(st: State)
    requires st.meta.pageSize != 0
    requires 1 <= st.meta.page <= PageCount(st.meta, |st.items|)
    ensures var n := PageCount(st.meta, |st.items|);
            && (!PrevButton(st.meta).disabled ==>
                  var s := ClickPager(st, PrevButton(st.meta)).state;
                  1 <= s.meta.page <= n && PageCount(s.meta, |s.items|) == n)
            && (!NextButton(st.meta, n).disabled ==>
                  var s := ClickPager(st, NextButton(st.meta, n)).state;
                  1 <= s.meta.page <= n && PageCount(s.meta, |s.items|) == n)
  {
  }

  /** `onSearch`: always fetch page 1 of the current search text. The page
      shown is not reset until the reply arrives. */
  function Search(st: State): (r: Step)
    ensures r.fetch == FetchRequest(st.q, 1, st.meta.pageSize)
    ensures r.state == st.(loading := true)
  {
    StartFetch(st, Some(1))
  }

  /** The listing reply as the page reads it; every field may be missing. */
  datatype ItemsReply = ItemsReply(items: Option<seq<Item>>, page: Option<int>, pageSize: Option<int>, total: Option<int>)

  /** A reply carrying every field of an `{ items, total, page, pageSize }` page. */
  function FullReply(p: ItemsPage): ItemsReply {
    ItemsReply(Some(p.items), Some(p.page), Some(p.pageSize), Some(p.total))
  }

  /** `x || d` for a number that may be missing: 0 is falsy too. */
  function OrDefault(x: Option<int>, d: int): (r: int)
    ensures x.Some? && x.value != 0 ==> r == x.value
    ensures x.None? || x.value == 0 ==> r == d
  {
    if x.Some? && x.value != 0 then x.value else d
  }

  const LoadFailed := "Failed to load items"

  /** The rest of `fetchData`: a reply replaces the rows and the pagination,
      with missing or falsy fields defaulting to `[]`, 1, 10 and 0; a
      rejection keeps them and records its message. `loading` ends either way. */
  function ApplyFetch(st: State, reply: Result<ItemsReply>): (r: State)
    ensures !r.loading
    ensures r.q == st.q && r.editing == st.editing && r.form == st.form
    ensures reply.Ok? ==> r.items == reply.value.items.GetOr([]) && r.error == st.error
    ensures reply.Ok? ==> r.meta.page == OrDefault(reply.value.page, 1)
    ensures reply.Ok? ==> r.meta.pageSize == OrDefault(reply.value.pageSize, 10)
    ensures reply.Ok? ==> r.meta.total == OrDefault(reply.value.total, 0)
    ensures reply.Err? ==> r.items == st.items && r.meta == st.meta
    ensures reply.Err? ==> r.error == if reply.error != "" then reply.error else LoadFailed
    ensures st.meta.pageSize != 0 ==> r.meta.pageSize != 0
  {
    match reply
    case Ok(res) =>
      st.(items := res.items.GetOr([]),
          meta := Meta(OrDefault(res.page, 1), OrDefault(res.pageSize, 10), OrDefault(res.total, 0)),
          loading := false)
    case Err(e) =>
      st.(error := if e != "" then e else LoadFailed, loading := false)
  }

  // ---------------------------------------------------------------------------
  // The edit form
  // ---------------------------------------------------------------------------

  /** `Number(v) || 0`: numbers stay, typed text is read as a numeral, and
      NaN becomes 0. */
  function Coerce(v: FieldValue): (r: int)
    ensures v.Num? ==> r == v.n
    ensures v.Typed? && Text.ToNumber(v.text).None? ==> r == 0
    ensures v.Typed? && Text.ToNumber(v.text).Some? ==> r == Text.ToNumber(v.text).value
  {
    match v
    case Num(n) => n
    case Typed(text) => Text.ToNumber(text).GetOr(0)
  }

  /** Typing a rendered integer into a numeric field yields that integer;
      a blank field yields 0. */
  lemma CoerceTypedNumeral(n: int, blank: string)
    requires Text.AllWhitespace(blank)
    ensures Coerce(Typed(Text.ShowInt(n))) == n
    ensures Coerce(Typed(blank)) == 0
  {
    Text.ToNumberShowInt(n);
  }

  /** `Number(v) || 0` for the price field, in cents: a price copied from
      an item is already in cents, typed text is read in currency units, and
      NaN becomes 0. */
  function CoercePrice(v: FieldValue): (r: int)
    ensures v.Num? ==> r == v.n
    ensures v.Typed? && Text.ToCents(v.text).None? ==> r == 0
    ensures v.Typed? && Text.ToCents(v.text).Some? ==> r == Text.ToCents(v.text).value
  {
    match v
    case Num(n) => n
    case Typed(text) => Text.ToCents(text).GetOr(0)
  }

  /** A price typed as a whole number of units, or with one or two
      decimals, is sent as its value in cents: "13" is 1300, "12.5" and
      "12.50" are 1250. */
  lemma CoerceTypedPrice(n: nat, f: string)
    requires 0 < |f| <= 2 && Text.AllDigits(f)
    ensures CoercePrice(Typed(Text.ShowNat(n))) == 100 * n
    ensures CoercePrice(Typed(Text.ShowNat(n) + "." + f)) == 100 * n + Text.FractionCents(f)
  {
    Text.ToCentsShowNat(n);
    Text.ToCentsDecimals(n, f);
  }

  /** `normalizeForm(form)`: name and SKU trimmed, numbers coerced, the
      price in cents. */
  function Normalize(f: Form): (r: ItemFields)
    ensures r.name == Text.Trim(f.name) && r.sku == Text.Trim(f.sku)
    ensures r.quantity == Coerce(f.quantity)
    ensures r.reorderThreshold == Coerce(f.reorderThreshold)
    ensures r.price == CoercePrice(f.price)
  {
    ItemFields(Text.Trim(f.name), Text.Trim(f.sku), Coerce(f.quantity), Coerce(f.reorderThreshold), CoercePrice(f.price))
  }

  /** Normalising twice is normalising once: the sent name and SKU carry no
      surrounding whitespace. */
  lemma NormalizeTrimsFully(f: Form)
    ensures var r := Normalize(f);
            && Text.Trim(r.name) == r.name && Text.Trim(r.sku) == r.sku
            && (r.name == [] <==> Text.AllWhitespace(f.name))
            && (r.sku == [] <==> Text.AllWhitespace(f.sku))
  {
    Text.TrimIdempotent(f.name);
    Text.TrimIdempotent(f.sku);
    Text.TrimEmptyIff(f.name);
    Text.TrimEmptyIff(f.sku);
  }

  /** The form holding an item's five editable fields. */
  function FormOf(item: Item): (f: Form)
    ensures f.name == item.name && f.sku == item.sku
    ensures f.quantity == Num(item.quantity) && f.reorderThreshold == Num(item.reorderThreshold)
    ensures f.price == Num(item.price)
  {
    Form(item.name, item.sku, Num(item.quantity), Num(item.reorderThreshold), Num(item.price))
  }

  /** `startEdit(item)`: remember the item and load its fields into the form. */
  function StartEdit(st: State, item: Item): (r: State)
    ensures r.editing == Some(item) && r.form == FormOf(item)
    ensures r.items == st.items && r.meta == st.meta && r.q == st.q
    ensures r.loading == st.loading && r.error == st.error
  {
    st.(editing := Some(item), form := FormOf(item))
  }

  /** `startCreate`, and the Cancel button: no item, empty form. */
  function StartCreate(st: State): (r: State)
    ensures r.editing.None? && r.form == EmptyForm
    ensures r.items == st.items && r.meta == st.meta && r.q == st.q
    ensures r.loading == st.loading && r.error == st.error
  {
    st.(editing := None, form := EmptyForm)
  }

  /** The inputs of the form. */
  datatype FormField = NameField | SkuField | QuantityField | ThresholdField | PriceField

  /** An input's `onChange`: the field takes the typed text, nothing else
      changes. */
  function TypeInto(st: State, field: FormField, text: string): (r: State)
    ensures r.editing == st.editing && r.items == st.items && r.meta == st.meta
    ensures r.q == st.q && r.loading == st.loading && r.error == st.error
    ensures field == NameField ==> r.form == st.form.(name := text)
    ensures field == SkuField ==> r.form == st.form.(sku := text)
    ensures field == QuantityField ==> r.form == st.form.(quantity := Typed(text))
    ensures field == ThresholdField ==> r.form == st.form.(reorderThreshold := Typed(text))
    ensures field == PriceField ==> r.form == st.form.(price := Typed(text))
  {
    match field
    case NameField => st.(form := st.form.(name := text))
    case SkuField => st.(form := st.form.(sku := text))
    case QuantityField => st.(form := st.form.(quantity := Typed(text)))
    case ThresholdField => st.(form := st.form.(reorderThreshold := Typed(text)))
    case PriceField => st.(form := st.form.(price := Typed(text)))
  }

  // ---------------------------------------------------------------------------
  // Submit and delete
  // ---------------------------------------------------------------------------

  /** A write the page asks the API client to perform. */
  datatype ItemCall = CreateCall(fields: ItemFields) | UpdateCall(id: int, fields: ItemFields) | DeleteCall(id: int)

  const Required := "Name and SKU are required"
  const SaveFailed := "Save failed"
  const DeleteFailed := "Delete failed"

  /** The submit handler up to the API call: the error is cleared, then an
      empty name or SKU (as typed, before trimming) stops it with a message
      and no call. Otherwise the normalised form is sent as an update of the
      item being edited, or as a create when none is. */
  datatype Submitted = Submitted(state: State, call: Option<ItemCall>)

  function Submit(st: State): (r: Submitted)
    ensures r.call.None? <==> st.form.name == "" || st.form.sku == ""
    ensures r.call.None? ==> r.state == st.(error := Required)
    ensures r.call.Some? ==> r.state == st.(error := "")
    ensures r.call.Some? ==> (r.call.value.UpdateCall? <==> st.editing.Some?)
    ensures r.call.Some? ==> !r.call.value.DeleteCall? && r.call.value.fields == Normalize(st.form)
    ensures r.call.Some? && st.editing.Some? ==> r.call.value.id == st.editing.value.id
  {
    var cleared := st.(error := "");
    if st.form.name == "" || st.form.sku == "" then
      Submitted(cleared.(error := Required), None)
    else if st.editing.Some? then
      Submitted(cleared, Some(UpdateCall(st.editing.value.id, Normalize(st.form))))
    else
      Submitted(cleared, Some(CreateCall(Normalize(st.form))))
  }

  /** The request the reload after a save or delete issues: the page on
      show, with the current search text and page size. */
  function Refetch(st: State): (r: FetchRequest)
    ensures r == FetchRequest(st.q, st.meta.page, st.meta.pageSize)
  {
    StartFetch(st, None).fetch
  }

  /** The submit handler after its call settled. A saved item reloads the
      list and then leaves edit mode with an empty form; a failed save keeps
      the form and records the message. */
  function FinishSubmit(st: State, saved: Result<Unit>, reload: Result<ItemsReply>): (r: State)
    ensures r.q == st.q
    ensures saved.Ok? ==> r.editing.None? && r.form == EmptyForm && !r.loading
    ensures saved.Ok? && reload.Ok? ==> r.items == reload.value.items.GetOr([]) && r.error == st.error
    ensures saved.Ok? && reload.Ok? ==>
              r.meta == Meta(OrDefault(reload.value.page, 1), OrDefault(reload.value.pageSize, 10),
                             OrDefault(reload.value.total, 0))
    ensures saved.Ok? && reload.Err? ==> r.items == st.items && r.meta == st.meta
    ensures saved.Ok? && reload.Err? ==> r.error == if reload.error != "" then reload.error else LoadFailed
    ensures saved.Err? ==> r.items == st.items && r.meta == st.meta
    ensures saved.Err? ==> r.editing == st.editing && r.form == st.form && r.loading == st.loading
    ensures saved.Err? ==> r.error == if saved.error != "" then saved.error else SaveFailed
  {
    match saved
    case Ok(_) => ApplyFetch(st, reload).(editing := None, form := EmptyForm)
    case Err(e) => st.(error := if e != "" then e else SaveFailed)
  }

  /** `onDelete(id)`: without the user's confirmation nothing is called. */
  function Delete(id: int, confirmed: bool): (r: Option<ItemCall>)
    ensures r.Some? <==> confirmed
    ensures r.Some? ==> r.value == DeleteCall(id)
  {
    if confirmed then Some(DeleteCall(id)) else None
  }

  /** The delete handler after its call settled: a deleted item reloads the
      list, a failed delete keeps the rows and records the message. The form
      is left alone either way. */
  function FinishDelete(st: State, deleted: Result<Unit>, reload: Result<ItemsReply>): (r: State)
    ensures r.editing == st.editing && r.form == st.form && r.q == st.q
    ensures deleted.Ok? ==> !r.loading
    ensures deleted.Ok? && reload.Ok? ==> r.items == reload.value.items.GetOr([]) && r.error == st.error
    ensures deleted.Ok? && reload.Ok? ==>
              r.meta == Meta(OrDefault(reload.value.page, 1), OrDefault(reload.value.pageSize, 10),
                             OrDefault(reload.value.total, 0))
    ensures deleted.Ok? && reload.Err? ==> r.items == st.items && r.meta == st.meta
    ensures deleted.Ok? && reload.Err? ==> r.error == if reload.error != "" then reload.error else LoadFailed
    ensures deleted.Err? ==> r.items == st.items && r.meta == st.meta && r.loading == st.loading
    ensures deleted.Err? ==> r.error == if deleted.error != "" then deleted.error else DeleteFailed
  {
    match deleted
    case Ok(_) => ApplyFetch(st, reload)
    case Err(e) => st.(error := if e != "" then e else DeleteFailed)
  }

  // ---------------------------------------------------------------------------
  // Properties across handlers
  // ---------------------------------------------------------------------------

  /** Validation looks at the untrimmed text: a name of spaces passes it and
      is sent as the empty string. */
  lemma BlankNamePassesValidation(st: State)
    ensures var s := TypeInto(TypeInto(StartCreate(st), NameField, "   "), SkuField, "S-1");
            var r := Submit(s);
            && r.call.Some?
            && r.call.value.CreateCall?
            && r.call.value.fields.name == ""
            && r.call.value.fields.sku == "S-1"
  {
    var s := TypeInto(TypeInto(StartCreate(st), NameField, "   "), SkuField, "S-1");
    assert s.form.name == "   " && s.form.sku == "S-1" && s.editing.None?;
    BlankAndSkuTrim();
  }

  lemma BlankAndSkuTrim()
    ensures Text.Trim("   ") == ""
    ensures Text.Trim("S-1") == "S-1"
  {
    Text.TrimEmptyIff("   ");
    Text.TrimNoop("S-1");
  }

  /** Cancelling an edit forgets it entirely: the page is as if the edit had
      never started, and a later save creates instead of updating. */
  lemma CancelDiscardsEdit(st: State, item: Item)
    ensures StartCreate(StartEdit(st, item)) == StartCreate(st)
    ensures forall field: FormField, text: string ::
              Submit(TypeInto(StartCreate(StartEdit(st, item)), field, text)).call.Some? ==>
                Submit(TypeInto(StartCreate(StartEdit(st, item)), field, text)).call.value.CreateCall?
  {
  }

  /** A fresh create form cannot be submitted as it is. */
  lemma EmptyFormRejected(st: State)
    ensures Submit(StartCreate(st)).call.None?
    ensures Submit(StartCreate(st)).state.error == Required
  {
  }

  /** Editing an item and saving it unchanged sends its own fields back as
      an update of its id, provided its name and SKU are non-empty and carry
      no surrounding whitespace. */
  lemma EditUnchangedRoundTrip(st: State, item: Item)
    requires item.name != "" && item.sku != ""
    requires Text.Trim(item.name) == item.name && Text.Trim(item.sku) == item.sku
    ensures Submit(StartEdit(st, item)).call == Some(UpdateCall(item.id, FieldsOf(item)))
  {
  }

  /** The page size is never zero in any state the handlers produce, so the
      page count is always defined. */
  lemma PageSizeNeverZero(st: State, reply: Result<ItemsReply>, b: PagerButton, page: Option<int>)
    requires st.meta.pageSize != 0
    ensures Initial.meta.pageSize != 0
    ensures ApplyFetch(st, reply).meta.pageSize != 0
    ensures StartFetch(st, page).state.meta.pageSize != 0
    ensures !b.disabled ==> ClickPager(st, b).state.meta.pageSize != 0
  {
  }

  /** A listing answered from the stub lands in the page unchanged: its rows,
      its total, and the page and size that were asked for (when those are
      truthy). */
  lemma StubReplyApplied(st: State, req: FetchRequest)
    requires req.page != 0 && req.pageSize != 0
    ensures var r := ApplyFetch(st, Ok(FullReply(StubItems(req.q, req.page, req.pageSize))));
            && r.items == StubItems(req.q, req.page, req.pageSize).items
            && r.meta == Meta(req.page, req.pageSize, |SearchCatalog(req.q)|)
  {
  }
}

=== FILE: login_page.dfy ===
/** The login page: where it sends the visitor back to, the redirect for an
    already authenticated visitor, and the submit handler's two guards. */
module LoginPage {
  import opened Wrappers
  import opened Navigation

  /** `location.state?.from?.pathname || '/'`. */
  function ReturnTarget(location: Location): (r: string)
    ensures r != ""
    ensures location.from.Some? && location.from.value.pathname != "" ==> r == location.from.value.pathname
    ensures location.from.None? || location.from.value.pathname == "" ==> r == HomePath
  {
    match location.from
    case Some(from) => if from.pathname != "" then from.pathname else HomePath
    case None => HomePath
  }

  /** What the page renders. */
  datatype View = LeaveTo(nav: Nav) | ShowForm

  /** An authenticated visitor is sent straight on to the return target. */
  function Render(isAuthenticated: bool, location: Location): (r: View)
    ensures r.LeaveTo? <==> isAuthenticated
    ensures r.LeaveTo? ==> r.nav == Nav(ReturnTarget(location), true, None)
  {
    if isAuthenticated then LeaveTo(Nav(ReturnTarget(location), true, None)) else ShowForm
  }

  /** What submitting the form does first. */
  datatype Submission = Ignored | CallLogin(email: string, password: string)

  /** An empty email or password ends the handler before `login` is called. */
  function Submit(email: string, password: string): (r: Submission)
    ensures r.CallLogin? <==> email != "" && password != ""
    ensures r.CallLogin? ==> r.email == email && r.password == password
  {
    if email == "" || password == "" then Ignored else CallLogin(email, password)
  }

  /** After `login` settles: navigate to the return target only when it
      returned true. */
  function AfterLogin(ok: bool, location: Location): (r: Option<Nav>)
    ensures r.Some? <==> ok
    ensures r.Some? ==> r.value == Nav(ReturnTarget(location), true, None)
  {
    if ok then Some(Nav(ReturnTarget(location), true, None)) else None
  }
}

=== FILE: navigation.dfy ===
/** The slice of the router the pages rely on: a location is a path plus
    the `state.from` location a redirect may attach, and a navigation names
    a target path, whether it replaces the history entry, and that state. */
module Navigation {
  import opened Wrappers

  datatype Location = Location(pathname: string, from: Option<Location>)

  /** A `<Navigate to replace state>` element or a `navigate(to, opts)` call. */
  datatype Nav = Nav(to: string, replace: bool, from: Option<Location>)

  const LoginPath := "/login"
  const HomePath := "/"

  /** The location a navigation arrives at. */
  function Follow(n: Nav): (l: Location)
    ensures l.pathname == n.to && l.from == n.from
  {
    Location(n.to, n.from)
  }
}

=== FILE: protected_route.dfy ===
/** The route guard wrapped around every page except the login page. */
module ProtectedRoute {
  import opened Wrappers
  import opened Navigation

  /** What the guard yields: its children, or a redirect element. */
  datatype Outcome<C> = Render(children: C) | Redirect(nav: Nav)

  /** An anonymous visitor is sent to `/login`, replacing the history entry
      and carrying the requested location as `state.from`; an authenticated
      one gets the children untouched. */
  function Guard<C>(isAuthenticated: bool, location: Location, children: C): (r: Outcome<C>)
    ensures r.Render? <==> isAuthenticated
    ensures r.Render? ==> r.children == children
    ensures r.Redirect? ==> r.nav.to == LoginPath && r.nav.replace && r.nav.from == Some(location)
  {
    if !isAuthenticated then Redirect(Nav(LoginPath, true, Some(location))) else Render(children)
  }
}

=== FILE: seqs.dfy ===
/** Sequence helpers with the meaning of JavaScript's `Array.prototype`
    methods used by the client. */
module Seqs {

  /** `xs.filter(p)`: the elements satisfying `p`, in their original order.
      How many times each survives is `FilterCounts`; that the survivors
      keep their order is `FilterConcat`. */
  function Filter<T>(xs: seq<T>, p: T -> bool): (r: seq<T>)
    ensures |r| <= |xs|
    ensures forall k :: 0 <= k < |r| ==> p(r[k]) && r[k] in xs
    ensures forall x :: x in xs && p(x) ==> x in r
  {
    if xs == [] then []
    else if p(xs[0]) then [xs[0]] + Filter(xs[1..], p)
    else Filter(xs[1..], p)
  }

  /** Every element of a prefix of a filtered sequence passed the filter. */
  lemma PrefixOfFilter<T>(xs: seq<T>, p: T -> bool, r: seq<T>)
    requires r <= Filter(xs, p)
    ensures forall k :: 0 <= k < |r| ==> p(r[k]) && r[k] in xs
  {
    var f := Filter(xs, p);
    assert forall k :: 0 <= k < |r| ==> r[k] == f[k];
  }

  /** Every element satisfying `p` survives as often as it occurs in `xs`,
      and nothing else survives. */
  lemma {:induction false} FilterCounts<T>(xs: seq<T>, p: T -> bool)
    ensures multiset(Filter(xs, p)) <= multiset(xs)
    ensures forall x :: x in xs ==> multiset(Filter(xs, p))[x] == if p(x) then multiset(xs)[x] else 0
  {
    if xs != [] {
      assert xs == [xs[0]] + xs[1..];
      FilterCounts(xs[1..], p);
    }
  }

  /** Filtering distributes over concatenation, so the survivors keep the
      order they had in `xs`. */
  lemma {:induction false} FilterConcat<T>(a: seq<T>, b: seq<T>, p: T -> bool)
    ensures Filter(a + b, p) == Filter(a, p) + Filter(b, p)
  {
    if a == [] {
      assert a + b == b;
    } else {
      assert (a + b)[0] == a[0];
      assert (a + b)[1..] == a[1..] + b;
      FilterConcat(a[1..], b, p);
      if p(a[0]) {
        calc {
          Filter(a + b, p);
          [a[0]] + Filter(a[1..] + b, p);
          [a[0]] + (Filter(a[1..], p) + Filter(b, p));
          ([a[0]] + Filter(a[1..], p)) + Filter(b, p);
          Filter(a, p) + Filter(b, p);
        }
      } else {
        calc {
          Filter(a + b, p);
          Filter(a[1..] + b, p);
          Filter(a[1..], p) + Filter(b, p);
          Filter(a, p) + Filter(b, p);
        }
      }
    }
  }

  /** Filtering keeps everything when every element satisfies `p`. */
  lemma {:induction false} FilterAll<T>(xs: seq<T>, p: T -> bool)
    requires forall k :: 0 <= k < |xs| ==> p(xs[k])
    ensures Filter(xs, p) == xs
  {
    if xs != [] {
      FilterAll(xs[1..], p);
    }
  }

  /** The end index `xs.slice(0, end)` stops at: a negative `end` counts
      from the back, and both are clamped to `[0, len]`. */
  function SliceEnd(len: nat, end: int): (r: nat)
    ensures r <= len
    ensures 0 <= end ==> r == if end < len then end else len
    ensures end < 0 ==> r == if len + end < 0 then 0 else len + end
  {
    if end < 0 then (if len + end < 0 then 0 else len + end)
    else if end < len then end else len
  }

  /** `xs.slice(0, end)`: always a prefix of `xs`. */
  function Slice<T>(xs: seq<T>, end: int): (r: seq<T>)
    ensures r <= xs
    ensures |r| == SliceEnd(|xs|, end)
  {
    xs[..SliceEnd(|xs|, end)]
  }
}

=== FILE: text.dfy ===
/** String helpers with the JavaScript meaning the client relies on:
    `String.prototype.trim`, `toLowerCase` (ASCII letters), `includes`,
    and the decimal rendering and reading of integers. */
module Text {
  import opened Wrappers

  // ---------------------------------------------------------------------------
  // Whitespace and trim
  // ---------------------------------------------------------------------------

  /** The characters `trim` removes: WhiteSpace and LineTerminator of
      section 12.2 and 12.3 of ECMA-262. */
  predicate IsWhitespace(c: char) {
    || c == '\t' || c == '\U{B}' || c == '\U{C}' || c == ' ' || c == '\U{A0}'
    || c == '\U{FEFF}' || c == '\U{1680}' || ('\U{2000}' <= c <= '\U{200A}')
    || c == '\U{202F}' || c == '\U{205F}' || c == '\U{3000}'
    || c == '\n' || c == '\r' || c == '\U{2028}' || c == '\U{2029}'
  }

  predicate AllWhitespace(s: string) {
    forall k :: 0 <= k < |s| ==> IsWhitespace(s[k])
  }

  /** The number of whitespace characters `s` starts with. */
  function LeadingWhitespace(s: string): (n: nat)
    ensures n <= |s|
    ensures forall k :: 0 <= k < n ==> IsWhitespace(s[k])
    ensures n == |s| || !IsWhitespace(s[n])
  {
    if |s| > 0 && IsWhitespace(s[0]) then
      var m := LeadingWhitespace(s[1..]);
      assert forall k :: 1 <= k < m + 1 ==> s[k] == s[1..][k - 1];
      m + 1
    else 0
  }

  /** The number of whitespace characters `s` ends with. */
  function TrailingWhitespace(s: string): (n: nat)
    ensures n <= |s|
    ensures forall k :: |s| - n <= k < |s| ==> IsWhitespace(s[k])
    ensures n == |s| || !IsWhitespace(s[|s| - n - 1])
  {
    if |s| > 0 && IsWhitespace(s[|s| - 1]) then
      var m := TrailingWhitespace(s[..|s| - 1]);
      assert forall k :: |s| - 1 - m <= k < |s| - 1 ==> s[k] == s[..|s| - 1][k];
      m + 1
    else 0
  }

  /** Drops leading whitespace: the result is the suffix of `s` that starts
      at the first non-whitespace character. */
  function TrimStart(s: string): (r: string)
    ensures |r| <= |s| && r == s[|s| - |r|..]
    ensures AllWhitespace(s[..|s| - |r|])
    ensures r == [] || !IsWhitespace(r[0])
  {
    s[LeadingWhitespace(s)..]
  }

  /** Drops trailing whitespace: the result is the prefix of `s` that ends at
      the last non-whitespace character. */
  function TrimEnd(s: string): (r: string)
    ensures |r| <= |s| && r == s[..|r|]
    ensures AllWhitespace(s[|r|..])
    ensures r == [] || !IsWhitespace(r[|r| - 1])
  {
    s[..|s| - TrailingWhitespace(s)]
  }

  /** `s.trim()`. */
  function Trim(s: string): (r: string)
  {
    TrimEnd(TrimStart(s))
  }

  /** The trimmed string is the middle of `s` with only whitespace cut off
      either side, and it neither starts nor ends with whitespace. */
  lemma TrimCharacterization(s: string)
    ensures Trimmed(s, Trim(s), |s| - |TrimStart(s)|)
    ensures Trim(s) == [] || (!IsWhitespace(Trim(s)[0]) && !IsWhitespace(Trim(s)[|Trim(s)| - 1]))
  {
    var a := TrimStart(s);
    var r := TrimEnd(a);
    assert Trim(s) == r;
    TrimParts(s, a, r, |s| - |a|);
    TrimEndsClean(a, r);
  }

  lemma TrimEndsClean(a: string, r: string)
    requires a == [] || !IsWhitespace(a[0])
    requires r == TrimEnd(a)
    ensures r == [] || (!IsWhitespace(r[0]) && !IsWhitespace(r[|r| - 1]))
  {
    if r != [] {
      assert r[0] == a[0];
    }
  }

  /** `r` sits at offset `i` of `s` and everything around it is whitespace. */
  ghost predicate Trimmed(s: string, r: string, i: int) {
    && 0 <= i && i + |r| <= |s|
    && s[i..i + |r|] == r
    && AllWhitespace(s[..i])
    && AllWhitespace(s[i + |r|..])
  }

  /** Glues the two halves of a trim into one `Trimmed` fact. */
  lemma TrimParts(s: string, a: string, r: string, i: int)
    requires 0 <= i <= |s| && a == s[i..]
    requires AllWhitespace(s[..i])
    requires |r| <= |a| && r == a[..|r|] && AllWhitespace(a[|r|..])
    ensures Trimmed(s, r, i)
  {
    assert s[i..i + |r|] == a[..|r|];
    assert s[i + |r|..] == a[|r|..];
  }

  /** A string trims to the empty string exactly when it is all whitespace. */
  lemma TrimEmptyIff(s: string)
    ensures Trim(s) == [] <==> AllWhitespace(s)
  {
    TrimCharacterization(s);
    var i := |s| - |TrimStart(s)|;
    if Trim(s) == [] {
      assert s == s[..i] + s[i..];
      AllWhitespaceConcat(s[..i], s[i..]);
    }
  }

  lemma AllWhitespaceConcat(a: string, b: string)
    requires AllWhitespace(a) && AllWhitespace(b)
    ensures AllWhitespace(a + b)
  {
  }

  /** A string with no whitespace at either end is its own trim. */
  lemma TrimNoop(s: string)
    requires s == [] || (!IsWhitespace(s[0]) && !IsWhitespace(s[|s| - 1]))
    ensures Trim(s) == s
  {
  }

  /** Trimming twice is trimming once. */
  lemma TrimIdempotent(s: string)
    ensures Trim(Trim(s)) == Trim(s)
  {
    TrimCharacterization(s);
    TrimNoop(Trim(s));
  }

  // ---------------------------------------------------------------------------
  // Case folding and substring search
  // ---------------------------------------------------------------------------

  predicate IsUpper(c: char) {
    'A' <= c <= 'Z'
  }

  /** `toLowerCase` on one character, for the ASCII letters. */
  function LowerChar(c: char): (r: char)
    ensures !IsUpper(r)
    ensures !IsUpper(c) ==> r == c
  {
    if IsUpper(c) then (c as int + 32) as char else c
  }

  /** `s.toLowerCase()`, for the ASCII letters. */
  function Lower(s: string): (r: string)
    ensures |r| == |s|
    ensures forall k :: 0 <= k < |s| ==> r[k] == LowerChar(s[k])
  {
    if s == [] then [] else [LowerChar(s[0])] + Lower(s[1..])
  }

  predicate StartsWith(s: string, p: string) {
    |p| <= |s| && s[..|p|] == p
  }

  /** `s.includes(sub)`, computed by scanning the start positions of `s`. */
  predicate Contains(s: string, sub: string)
    decreases |s|
  {
    StartsWith(s, sub) || (|s| > 0 && Contains(s[1..], sub))
  }

  /** `sub` occurs in `s` at offset `i`. */
  ghost predicate OccursAt(s: string, sub: string, i: int) {
    0 <= i && i + |sub| <= |s| && s[i..i + |sub|] == sub
  }

  /** The scan finds `sub` exactly when some offset of `s` holds it. */
  lemma {:induction false} ContainsIff(s: string, sub: string)
    ensures Contains(s, sub) <==> exists i :: OccursAt(s, sub, i)
    decreases |s|
  {
    if StartsWith(s, sub) {
      assert OccursAt(s, sub, 0);
    } else if |s| == 0 {
      assert |sub| > 0;
    } else {
      ContainsIff(s[1..], sub);
      if Contains(s[1..], sub) {
        var i :| OccursAt(s[1..], sub, i);
        assert s[1..][i..i + |sub|] == s[i + 1..i + 1 + |sub|];
        assert OccursAt(s, sub, i + 1);
      }
      if exists i :: OccursAt(s, sub, i) {
        var i :| OccursAt(s, sub, i);
        if i > 0 {
          assert s[1..][i - 1..i - 1 + |sub|] == s[i..i + |sub|];
          assert OccursAt(s[1..], sub, i - 1);
        }
      }
    }
  }

  /** A string without the first character of `sub` cannot contain `sub`. */
  lemma {:induction false} MissingFirstCharNotContained(s: string, sub: string)
    requires |sub| > 0
    requires sub[0] !in s
    ensures !Contains(s, sub)
    decreases |s|
  {
    if |s| > 0 {
      if |sub| <= |s| {
        assert s[..|sub|][0] == s[0];
      }
      MissingFirstCharNotContained(s[1..], sub);
    }
  }

  // ---------------------------------------------------------------------------
  // Decimal numerals
  // ---------------------------------------------------------------------------

  predicate IsDigit(c: char) {
    '0' <= c <= '9'
  }

  predicate AllDigits(s: string) {
    forall k :: 0 <= k < |s| ==> IsDigit(s[k])
  }

  function DigitChar(d: nat): (c: char)
    requires d < 10
    ensures IsDigit(c)
  {
    ('0' as int + d) as char
  }

  function DigitValue(c: char): (d: nat)
    requires IsDigit(c)
    ensures d < 10
  {
    c as int - '0' as int
  }

  /** `String(n)` for a non-negative integer: its shortest decimal numeral. */
  function ShowNat(n: nat): (r: string)
    ensures |r| > 0 && AllDigits(r)
    ensures |r| > 1 ==> r[0] != '0'
  {
    if n < 10 then [DigitChar(n)] else ShowNat(n / 10) + [DigitChar(n % 10)]
  }

  /** The value of a string of decimal digits (most significant first). */
  function ParseDigits(s: string): nat
    requires AllDigits(s)
  {
    if s == [] then 0 else 10 * ParseDigits(s[..|s| - 1]) + DigitValue(s[|s| - 1])
  }

  /** Reading back a rendered number gives the number. */
  lemma {:induction false} ParseShowNat(n: nat)
    ensures ParseDigits(ShowNat(n)) == n
  {
    if n >= 10 {
      var s := ShowNat(n);
      assert s[..|s| - 1] == ShowNat(n / 10);
      ParseShowNat(n / 10);
    }
  }

  /** `String(n)` for any integer. */
  function ShowInt(n: int): (r: string)
    ensures |r| > 0
  {
    if n < 0 then "-" + ShowNat(-n) else ShowNat(n)
  }

  /** `Number(s)` for the numerals a form field holds: surrounding whitespace
      is ignored, a blank string is 0, an optionally signed run of decimal
      digits is its value, and anything else is NaN (`None`). */
  function ToNumber(s: string): (r: Option<int>)
    ensures AllWhitespace(s) ==> r == Some(0)
    ensures r.None? ==> Trim(s) != []
  {
    TrimEmptyIff(s);
    NumeralValue(Trim(s))
  }

  /** The value of an already trimmed numeral. */
  function NumeralValue(t: string): (r: Option<int>)
    ensures t == [] ==> r == Some(0)
    ensures AllDigits(t) ==> r == Some(ParseDigits(t))
  {
    if t == [] then Some(0)
    else if |t| > 1 && t[0] == '-' && AllDigits(t[1..]) then Some(0 - ParseDigits(t[1..]))
    else if |t| > 1 && t[0] == '+' && AllDigits(t[1..]) then Some(ParseDigits(t[1..]))
    else if AllDigits(t) then Some(ParseDigits(t))
    else None
  }

  /** A rendered integer has no surrounding whitespace. */
  lemma ShowIntIsTrimmed(n: int)
    ensures Trim(ShowInt(n)) == ShowInt(n)
  {
    var s := ShowInt(n);
    assert s[|s| - 1] == (if n < 0 then ShowNat(-n) else ShowNat(n))[|s| - 1 - (if n < 0 then 1 else 0)];
    assert IsDigit(s[|s| - 1]);
    assert IsDigit(s[0]) || s[0] == '-';
    TrimNoop(s);
  }

  /** Every rendered integer reads back as itself. */
  lemma ToNumberShowInt(n: int)
    ensures ToNumber(ShowInt(n)) == Some(n)
  {
    ShowIntIsTrimmed(n);
    NumeralShowInt(n);
  }

  /** The numeral of a rendered integer is that integer. */
  lemma NumeralShowInt(n: int)
    ensures NumeralValue(ShowInt(n)) == Some(n)
  {
    if n < 0 {
      ParseShowNat(-n);
      NegativeNumeral(ShowNat(-n));
    } else {
      ParseShowNat(n);
    }
  }

  /** A minus sign in front of digits negates their value. */
  lemma NegativeNumeral(d: string)
    requires |d| > 0 && AllDigits(d)
    ensures NumeralValue("-" + d) == Some(0 - ParseDigits(d))
  {
    assert ("-" + d)[1..] == d;
  }

  // ---------------------------------------------------------------------------
  // Prices in cents
  // ---------------------------------------------------------------------------

  /** The index of the first decimal point of `s`, or `|s|` when it has none. */
  function PointIndex(s: string): (i: nat)
    ensures i <= |s|
    ensures i < |s| ==> s[i] == '.'
    ensures forall k :: 0 <= k < i ==> s[k] != '.'
  {
    if s == [] || s[0] == '.' then 0 else 1 + PointIndex(s[1..])
  }

  /** The cents written by the one or two digits after the point: "5" is
      50 cents and "05" is 5. */
  function FractionCents(f: string): (c: nat)
    requires AllDigits(f) && |f| <= 2
    ensures c < 100
  {
    if f == [] then 0
    else if |f| == 1 then 10 * DigitValue(f[0])
    else 10 * DigitValue(f[0]) + DigitValue(f[1])
  }

  /** The cents of an amount split at its point: at least one digit in
      all, and at most two after the point. */
  function Amount(whole: string, frac: string): (r: Option<nat>)
    ensures r.Some? <==> AllDigits(whole) && AllDigits(frac) && |frac| <= 2 && (whole != [] || frac != [])
  {
    if AllDigits(whole) && AllDigits(frac) && |frac| <= 2 && (whole != [] || frac != []) then
      Some(100 * ParseDigits(whole) + FractionCents(frac))
    else None
  }

  /** An unsigned amount in cents: digits, optionally followed by a point
      and at most two more digits, with at least one digit in all. */
  function UnsignedCents(u: string): Option<nat> {
    var i := PointIndex(u);
    Amount(u[..i], if i < |u| then u[i + 1..] else [])
  }

  /** A run of digits is that many hundreds of cents. */
  lemma UnsignedDigits(u: string)
    requires AllDigits(u) && u != []
    ensures UnsignedCents(u) == Some(100 * ParseDigits(u))
  {
    DigitsHaveNoPoint(u);
    assert u[..|u|] == u;
  }

  /** A run of digits has no decimal point. */
  lemma DigitsHaveNoPoint(u: string)
    ensures AllDigits(u) ==> PointIndex(u) == |u|
  {
  }

  /** The value in cents of an already trimmed amount with an optional sign. */
  function SignedCents(t: string): (r: Option<int>)
    ensures t == [] ==> r == Some(0)
  {
    if t == [] then Some(0)
    else if t[0] == '-' then
      match UnsignedCents(t[1..])
      case Some(c) => Some(0 - c)
      case None => None
    else
      match UnsignedCents(if t[0] == '+' then t[1..] else t)
      case Some(c) => Some(c)
      case None => None
  }

  /** `Number(s)` for a price typed in currency units, read in cents:
      surrounding whitespace is ignored, a blank string is 0, and an
      optionally signed amount with at most two decimals is its value in
      cents. Anything else is `None`. */
  function ToCents(s: string): (r: Option<int>)
    ensures AllWhitespace(s) ==> r == Some(0)
    ensures r.None? ==> Trim(s) != []
  {
    TrimEmptyIff(s);
    SignedCents(Trim(s))
  }

  /** Whatever `ToNumber` reads as a whole number of units, `ToCents` reads
      as that many hundreds of cents. */
  lemma WholeUnitsInCents(s: string)
    requires ToNumber(s).Some?
    ensures ToCents(s) == Some(100 * ToNumber(s).value)
  {
    NumeralCents(Trim(s));
  }

  lemma NumeralCents(t: string)
    requires NumeralValue(t).Some?
    ensures SignedCents(t) == Some(100 * NumeralValue(t).value)
  {
    if t == [] {
    } else if |t| > 1 && (t[0] == '-' || t[0] == '+') && AllDigits(t[1..]) {
      UnsignedDigits(t[1..]);
    } else {
      assert AllDigits(t) && IsDigit(t[0]);
      UnsignedDigits(t);
    }
  }

  /** A rendered whole number of units reads back as that many hundreds of
      cents. */
  lemma ToCentsShowNat(n: nat)
    ensures ToCents(ShowNat(n)) == Some(100 * n)
  {
    var w := ShowNat(n);
    LeadingDigitCents(w);
    UnsignedDigits(w);
    ParseShowNat(n);
  }

  /** An amount that starts and ends with a digit needs no trimming and
      carries no sign. */
  lemma LeadingDigitCents(s: string)
    requires |s| > 0 && IsDigit(s[0]) && IsDigit(s[|s| - 1])
    ensures ToCents(s) == UnsignedCents(s)
  {
    TrimNoop(s);
    UnsignedDigitCents(s);
  }

  lemma UnsignedDigitCents(s: string)
    requires |s| > 0 && IsDigit(s[0])
    ensures SignedCents(s) == UnsignedCents(s)
  {
    assert s[0] != '-' && s[0] != '+';
  }

  /** Digits, a point and a fraction are read as the amount split at that
      point. */
  lemma UnsignedCentsWithPoint(w: string, f: string)
    requires AllDigits(w)
    ensures UnsignedCents(w + "." + f) == Amount(w, f)
  {
    PointAfterDigits(w, f);
    PointedSlices(w, f);
  }

  lemma PointedSlices(w: string, f: string)
    ensures |w + "." + f| > |w|
    ensures (w + "." + f)[..|w|] == w && (w + "." + f)[|w| + 1..] == f
  {
  }

  /** The first point after a run of digits is the one that ends it. */
  lemma PointAfterDigits(w: string, f: string)
    requires AllDigits(w)
    ensures PointIndex(w + "." + f) == |w|
  {
    var s := w + "." + f;
    assert s[|w|] == '.';
    assert forall k :: 0 <= k < |w| ==> s[k] == w[k];
  }

  /** An amount written with one or two decimals, as `toFixed(2)` writes
      it, reads back as its whole units in hundreds of cents plus the cents
      its decimals write ("12.5" is 1250, "12.05" is 1205). */
  lemma ToCentsDecimals(n: nat, f: string)
    requires 0 < |f| <= 2 && AllDigits(f)
    ensures ToCents(ShowNat(n) + "." + f) == Some(100 * n + FractionCents(f))
  {
    ParseShowNat(n);
    PointedCents(ShowNat(n), f, n);
  }

  /** Digits worth `v`, a point and one or two digits read as `v` in
      hundreds of cents plus the fraction's cents. */
  lemma PointedCents(w: string, f: string, v: nat)
    requires w != [] && AllDigits(w) && v == ParseDigits(w)
    requires 0 < |f| <= 2 && AllDigits(f)
    ensures ToCents(w + "." + f) == Some(100 * v + FractionCents(f))
  {
    var s := w + "." + f;
    assert s[0] == w[0] && s[|s| - 1] == f[|f| - 1];
    LeadingDigitCents(s);
    UnsignedCentsWithPoint(w, f);
    AmountOfDigits(w, f, v);
  }

  lemma AmountOfDigits(w: string, f: string, v: nat)
    requires w != [] && AllDigits(w) && v == ParseDigits(w)
    requires AllDigits(f) && |f| <= 2
    ensures Amount(w, f) == Some(100 * v + FractionCents(f))
  {
  }

}

=== FILE: token_store.dfy ===
/** The bearer-token store of the API client: an in-memory cache in front of
    one durable slot (the `auth_token` key of the browser's local storage).
    Both slots are modelled as values; a page reload empties the cache and
    keeps the durable slot. */
module TokenStore {
  import opened Wrappers

  /** JavaScript truthiness of a token: present and not the empty string. */
  predicate Present(t: Option<string>) {
    t.Some? && t.value != ""
  }

  datatype Store = Store(memory: Option<string>, persisted: Option<string>)

  /** Nothing cached and nothing saved: a first visit. */
  const Blank := Store(None, None)

  /** No slot ever holds the empty string: every write goes through a
      truthiness check. */
  predicate Valid(s: Store) {
    && (s.memory.Some? ==> s.memory.value != "")
    && (s.persisted.Some? ==> s.persisted.value != "")
  }

  /** `setAuthToken(token)`: a truthy token is written to both slots, anything
      else (null or "") empties both, whatever they held before. */
  function SetAuthToken(s: Store, token: Option<string>): (r: Store)
    ensures Valid(r)
    ensures r.memory == r.persisted
    ensures Present(token) <==> Present(r.persisted)
    ensures Present(token) ==> r.persisted == token
    ensures !Present(token) ==> r == Blank
  {
    if Present(token) then Store(token, token) else Blank
  }

  /** What `getAuthToken()` returns together with the store it leaves. */
  datatype Read = Read(store: Store, token: Option<string>)

  /** `getAuthToken()`: the cached token when there is one; otherwise the
      saved token, which is then cached; otherwise the (empty) cache. */
  function GetAuthToken(s: Store): (r: Read)
    ensures r.store.persisted == s.persisted
    ensures Present(r.token) <==> Present(s.memory) || Present(s.persisted)
    ensures Present(s.memory) ==> r.token == s.memory && r.store == s
    ensures !Present(s.memory) ==> r.token == (if Present(s.persisted) then s.persisted else s.memory)
    ensures Present(r.token) ==> r.store.memory == r.token
    ensures !Present(r.token) ==> r.store == s
  {
    if Present(s.memory) then Read(s, s.memory)
    else if Present(s.persisted) then Read(Store(s.persisted, s.persisted), s.persisted)
    else Read(s, s.memory)
  }

  /** A full page reload: the module-level cache starts again at null. */
  function Reload(s: Store): (r: Store)
    ensures r.memory.None? && r.persisted == s.persisted
  {
    Store(None, s.persisted)
  }

  /** Every operation keeps the store free of empty-string tokens. */
  lemma ValidPreserved(s: Store, token: Option<string>)
    requires Valid(s)
    ensures Valid(GetAuthToken(s).store)
    ensures Valid(Reload(s))
    ensures Valid(SetAuthToken(s, token))
    ensures !Present(GetAuthToken(s).token) ==> GetAuthToken(s).token.None?
  {
  }

  /** Reading right after setting a truthy token returns that token, which
      is also the saved one. */
  lemma SetThenGet(s: Store, t: string)
    requires t != ""
    ensures GetAuthToken(SetAuthToken(s, Some(t))).token == Some(t)
    ensures GetAuthToken(SetAuthToken(s, Some(t))).store.persisted == Some(t)
  {
  }

  /** Clearing (with null or "") empties both slots, and reading afterwards
      returns null. */
  lemma ClearThenGet(s: Store, token: Option<string>)
    requires !Present(token)
    ensures GetAuthToken(SetAuthToken(s, token)) == Read(Blank, None)
  {
  }

  /** After a reload, reading returns the saved token and caches it again. */
  lemma GetAfterReload(s: Store)
    requires Valid(s)
    ensures GetAuthToken(Reload(s)).token == s.persisted
    ensures GetAuthToken(Reload(s)).store == Store(s.persisted, s.persisted)
  {
  }

  /** A token set before a reload is still returned after it; a cleared one
      stays cleared. */
  lemma SetSurvivesReload(s: Store, token: Option<string>)
    ensures Present(token) ==> GetAuthToken(Reload(SetAuthToken(s, token))).token == token
    ensures !Present(token) ==> GetAuthToken(Reload(SetAuthToken(s, token))).token.None?
  {
  }

  /** Reading is idempotent: a second read returns the same token and leaves
      the store as the first read left it. */
  lemma GetIdempotent(s: Store)
    ensures GetAuthToken(GetAuthToken(s).store) == GetAuthToken(s)
  {
  }
}

=== FILE: wrappers.dfy ===
/** The optional and fallible values every module of the model uses.
    `Option` stands for a JavaScript value that may be `null`/`undefined`;
    `Result` stands for a promise that resolves with a value or rejects with
    an `Error` whose message is the string carried by `Err`. */
module Wrappers {

  datatype Option<+T> = None | Some(value: T) {

    /** The carried value, or `default` when there is none (JavaScript `??`). */
    function GetOr(default: T): T {
      match this
      case Some(v) => v
      case None => default
    }
  }

  datatype Result<+T> = Ok(value: T) | Err(error: string)

  /** The empty payload of an operation that only succeeds or fails. */
  datatype Unit = Unit
}
